=== FILE: README.md ===
# NC VIP-DMV alert bookkeeping, in Dafny

NC VIP-DMV polls North Carolina DMV office pages for open appointment slots
and alerts people about new ones over three channels:

- a Discord webhook;
- SMS to one test number;
- email to every subscriber of the office, or to a test address when nobody
  subscribes.

This project models the bookkeeping that decides which alerts go out. It
leaves the probing and the transports aside. The model is immutable data and
pure functions: the clock, the files, the environment and the network are
parameters.

| Dafny module | file | what it models |
|---|---|---|
| `Wrappers` | `wrappers.dfy` | `Option` and `Result` |
| `Text` | `text.dfy` | `str.strip()` over Python's `isspace` set, ASCII `str.lower()`, `startswith` |
| `StringOrder` | `ordering.dfy` | Python's string order (code point by code point, a proper prefix first) and `sorted(set(...))` |
| `DedupStore` | `state.dfy` | the seen-signature store: office → dedup key → timestamp, with its time-to-live purge |
| `Subscriptions` | `subscriptions.dfy` | the subscription store: email → sorted, duplicate-free office list |
| `Dispatch` | `dispatch.dfy` | the channel-namespaced dedup keys and the check–mark–send fold |
| `Scheduler` | `scheduler.dfy` | `_handle_result`, `_get_subscribed_emails`, the per-office summary, one polling iteration, the run plan, and the re-checks each send task makes |
| `Server` | `server.dfy` | the office listing merge, subscription upsert/delete, the two bearer-token gates, and the test-send endpoints |

Timestamps are integers (whole seconds). A send is an event
`Send(channel, office, url, signature)`. The decision for one office result
is `HandleResult(store, now, settings, subs, office, url, available, signatures)`.
It returns the new store and the sends in the order the source starts their
tasks: Discord per signature, then SMS per signature, then email per
recipient and per signature.

The code checks a bearer token only when listing subscriptions, on the test
sends and on office discovery. Upsert and delete take no token
(nc_vip_dmv/web/server.py:116-142), so `UpsertSubscription` and
`DeleteSubscription` have no authorization input.

## Model

| member | source | states |
|---|---|---|
| DedupStore.WasSeen | nc_vip_dmv/core/state.py:47-49 | a key counts as seen whenever it is recorded under the office, whatever its age; an office holding it has a non-empty key map |
| DedupStore.Open | nc_vip_dmv/core/state.py:10-28 | the TTL is `ttl_hours * 3600` seconds; a missing or unreadable file gives the empty store, otherwise the persisted map is used as is |
| DedupStore.MarkSeen | nc_vip_dmv/core/state.py:51-54 | afterwards the key is seen under the office with stamp `now`; every other (office, key) entry and every other office is unchanged; an office is never left with an empty key map |
| DedupStore.PurgeExpired | nc_vip_dmv/core/state.py:35-45 | an entry survives exactly when `now - ts <= ttl`, keeping its stamp; no new offices appear; no office is left with an empty map; every survivor is fresh at `now` |
| DedupStore.PurgeKeepsFresh | nc_vip_dmv/core/state.py:35-45 | a store with no empty offices whose entries are all fresh at `now` is left unchanged by the purge |
| DedupStore.PurgeIdempotent | nc_vip_dmv/core/state.py:35-45 | purging twice at the same instant equals purging once |
| DedupStore.MarkThenPurge | nc_vip_dmv/core/state.py:35-54 | a key marked at `t` survives a purge at `t'` exactly when `t' - t <= ttl` |
| DedupStore.TtlBoundary | nc_vip_dmv/core/state.py:12 | with TTL `h` hours, a mark is kept when purged exactly `h*3600` seconds later and dropped one second after that |
| DedupStore.OpenCorruptIsEmpty | nc_vip_dmv/core/state.py:19-28 | a store opened from an unreadable file has seen nothing, and marking still works on it |
| Subscriptions.Open | nc_vip_dmv/core/subscriptions.py:21-28 | an unreadable or missing file loads as the empty map |
| Subscriptions.ListEmails | nc_vip_dmv/core/subscriptions.py:34-35 | strictly ascending, holding exactly the stored emails |
| Subscriptions.GetOfficesFor | nc_vip_dmv/core/subscriptions.py:37-38 | the stored list for a stored email; the empty list otherwise |
| Subscriptions.SetSubscription | nc_vip_dmv/core/subscriptions.py:40-42 | the email's list becomes strictly sorted with exactly the given offices, replacing what was there; other emails are untouched |
| Subscriptions.Remove | nc_vip_dmv/core/subscriptions.py:44-47 | the email is absent afterwards; nothing changes if it was absent; other emails are untouched |
| Subscriptions.SetSubscriptionOrderFree | nc_vip_dmv/core/subscriptions.py:41 | two office lists with the same members, in any order and with any repetition, store the same list |
| Subscriptions.OverwriteExample | nc_vip_dmv/core/subscriptions.py:40-42 | `[Raleigh, Raleigh, Durham]` is stored as `[Durham, Raleigh]`, and a later `[Durham]` replaces it instead of merging |
| StringOrder.Less | nc_vip_dmv/core/subscriptions.py:35 | Python's `<` on `str`: a string is never below itself, and a proper prefix comes first |
| StringOrder.SortedOfSet | nc_vip_dmv/core/subscriptions.py:35 | `sorted(set(...))` is strictly ascending under Python's string order, with the same members and as many elements as the set |
| StringOrder.SortedUnique | nc_vip_dmv/core/subscriptions.py:41 | two strictly sorted sequences with the same members are equal, so the sorted form of a set is canonical |
| StringOrder.LessTotal | nc_vip_dmv/core/subscriptions.py:35 | any two different strings are ordered one way or the other |
| StringOrder.LessTransitive | nc_vip_dmv/core/subscriptions.py:35 | the string order is transitive |
| Text.IsSpace | nc_vip_dmv/web/server.py:121 | the `str.isspace()` set that a bare `strip()` removes: space, tab, newline and carriage return are in it, ASCII letters and digits are not |
| Text.StartsWith | nc_vip_dmv/web/server.py:155 | `str.startswith`: a string starts with a prefix only when it is at least as long and agrees with it position by position |
| Text.Strip | nc_vip_dmv/web/server.py:121 | the result has no space at either end and is no longer than the input |
| Text.StripCutsOnlySpaces | nc_vip_dmv/web/server.py:121 | the stripped string is an infix of the input with only spaces on either side of it |
| Text.StripPadded | nc_vip_dmv/web/server.py:157 | a non-empty stripped token with one space on each side strips back to the token |
| Text.Lower | nc_vip_dmv/web/server.py:121 | same length, each ASCII capital replaced by its small letter, nothing else changed |
| Dispatch.DedupKey | nc_vip_dmv/core/scheduler.py:152-171 | the Discord key is the bare signature; the SMS key adds the 4-character `SMS|` tag; the email key adds `EMAIL|`, the recipient and one separator |
| Dispatch.DedupKeyShape | nc_vip_dmv/core/scheduler.py:152-171 | every key ends with its signature; an SMS key starts with `SMS|`; an email key starts with `EMAIL|`, followed by the recipient and a `|` |
| Dispatch.Run | nc_vip_dmv/core/scheduler.py:150-173 | each send is a candidate whose key was unseen under its office; no two sends share an (office, key) slot; every candidate is seen afterwards; nothing seen is forgotten; all candidates already seen means no sends and no change |
| Dispatch.RunSendsNewSlots | nc_vip_dmv/core/scheduler.py:152-154 | the slots sent are exactly the candidate slots the store had not seen |
| Dispatch.RunRecords | nc_vip_dmv/core/scheduler.py:152-173 | afterwards a slot is seen exactly when it was seen before or is a candidate's; old stamps are kept and new ones are `now` |
| Dispatch.RunLeavesOtherOffices | nc_vip_dmv/core/scheduler.py:152-173 | an office no candidate names keeps its entry exactly |
| Dispatch.RunAllNew | nc_vip_dmv/core/scheduler.py:150-173 | distinct, all-unseen candidates are all sent, in order |
| Dispatch.RunAppend | nc_vip_dmv/core/scheduler.py:150-173 | running two candidate lists one after the other is the same as running their concatenation |
| Dispatch.DedupKeyInjective | nc_vip_dmv/core/scheduler.py:152-171 | the keys of different channels and signatures differ, as long as no signature starts with a channel tag and no recipient contains a vertical bar |
| Dispatch.EmailKeysCanCollide | nc_vip_dmv/core/scheduler.py:171 | without the recipient condition, two different recipient and signature pairs share one email key |
| Scheduler.EffectiveSignatures | nc_vip_dmv/core/scheduler.py:151 | never empty: an empty signature list becomes `["AVAILABLE"]` |
| Scheduler.SubscribedEmails | nc_vip_dmv/core/scheduler.py:52-61 | exactly the stored emails whose office list names the office |
| Scheduler.Recipients | nc_vip_dmv/core/scheduler.py:163-168 | the office's subscribers; if there are none, the trimmed test address when it is not empty; otherwise nobody |
| Scheduler.Candidates | nc_vip_dmv/core/scheduler.py:144-173 | a send is a candidate exactly when the result is available, notifications are on, its signature is effective, and its channel is open: Discord needs only its flag, SMS and email also need credentials, email only goes to recipients |
| Scheduler.CandidatesChannelOrder | nc_vip_dmv/core/scheduler.py:150-173 | the candidates come channel by channel: no Discord send after an SMS or email send, no SMS send after an email send |
| Scheduler.HandleResult | nc_vip_dmv/core/scheduler.py:143-175 | no availability or notifications off: no sends and no change; otherwise each send is a considered, previously unseen one with its own key; every considered send is seen afterwards |
| Scheduler.HandleResultComplete | nc_vip_dmv/core/scheduler.py:150-173 | every considered send whose key was unseen is sent |
| Scheduler.HandleResultRecords | nc_vip_dmv/core/scheduler.py:152-173 | afterwards a slot is seen exactly when it was seen before or some considered send uses it; old stamps are kept, new entries appear only under the result's office and are stamped `now`; other offices are unchanged |
| Scheduler.HandleResultTwice | nc_vip_dmv/core/scheduler.py:152-172 | handling the same result again on the resulting store sends nothing on any channel and changes nothing |
| Scheduler.DiscordMarkedWithoutWebhook | nc_vip_dmv/core/scheduler.py:150-154 | with Discord enabled but no webhook, the key is still marked while the send task delivers nothing |
| Scheduler.Deliver | nc_vip_dmv/core/scheduler.py:177-208 | a send task calls its transport only if notifications are on and its channel is enabled and configured; SMS also needs a non-empty trimmed test number, which it addresses; a Discord send posts its office, URL and signature to the webhook, an email send mails its own recipient |
| Scheduler.Summarise | nc_vip_dmv/core/scheduler.py:101-108 | the summary keeps office, url and availability, counts all signatures, and samples a prefix of at most 5 of them |
| Scheduler.AtLeastOne | nc_vip_dmv/core/scheduler.py:65-66 | `max(1, x)`: an input below 1 becomes exactly 1, any other input is kept |
| Scheduler.SelectedChecker | nc_vip_dmv/core/scheduler.py:64 | Python's `or`: a missing or empty override falls back to the configured name, any other override is used as given |
| Scheduler.PlanRun | nc_vip_dmv/core/scheduler.py:63-77 | the override, unless missing or empty, selects the checker; only `playwright` and `browseruse` are accepted, anything else fails with `Unknown checker type: <name>`; interval and concurrency are `max(1, x)` of the configured values |
| Scheduler.SucceededMembers | nc_vip_dmv/core/scheduler.py:97-111 | the outcomes an iteration summarises are exactly its successful probes; a failed probe is dropped |
| Scheduler.Summaries | nc_vip_dmv/core/scheduler.py:97-111 | one summary per successful probe, in order; failed probes add nothing |
| Scheduler.Decide | nc_vip_dmv/core/scheduler.py:88-95 | handling the results in arrival order, each against the store the previous one left, never forgets an entry, keeps the TTL, and sends only keys the starting store had not recorded |
| Scheduler.DecideIsOneRun | nc_vip_dmv/core/scheduler.py:88-95 | handling the results one after another equals one decision fold over all their candidates |
| Scheduler.AllCandidates | nc_vip_dmv/core/scheduler.py:88-95 | a send is among the iteration's candidates exactly when some successful probe's result considers it |
| Scheduler.Iteration | nc_vip_dmv/core/scheduler.py:88-95 | after purging, the slots sent are exactly the candidate slots the purged store had not recorded, each once; the store left for the next iteration records exactly the purged store's entries, with their stamps, plus every candidate slot, the new ones stamped at the mark instant; one summary per successful probe |
| Scheduler.IterationRepeatSilent | nc_vip_dmv/core/scheduler.py:113-125 | repeating an iteration with the same results at the same purge and mark instants, the marks not yet expired at the purge, sends nothing and changes nothing |
| Scheduler.TwoFollowers | nc_vip_dmv/core/scheduler.py:52-61 | an office followed by exactly two stored emails has them as recipients, ascending |
| Scheduler.RaleighExample | nc_vip_dmv/core/scheduler.py:150-173 | two Raleigh subscribers and one signature: one Discord send and one email per subscriber, then silence |
| Server.LastNamed | nc_vip_dmv/web/server.py:100-102 | the last entry with a name, present exactly when the name occurs |
| Server.IndexByName | nc_vip_dmv/web/server.py:100-102 | a name-keyed dict built in order holds the last entry of each name over its starting contents |
| Server.MergeOffices | nc_vip_dmv/web/server.py:99-103 | names strictly ascending, so no duplicates; names are the union of both lists; a configured entry wins a name clash, and otherwise the last discovered entry is used |
| Server.ApiOffices | nc_vip_dmv/web/server.py:89-104 | 503 without a scheduler; `configured` and `discovered` return that list unchanged; any other source returns the merge, so its names are the union, ascending, with configured entries winning |
| Server.KnownOffices | nc_vip_dmv/web/server.py:126 | a name is known exactly when it is in the discovered cache or, once the scheduler exists, among the configured offices |
| Server.NormaliseEmail | nc_vip_dmv/web/server.py:121 | the payload email trimmed and then lower-cased, so it has no space at either end and no capital letter; a missing email normalises to empty |
| Server.NormaliseEmailIdempotent | nc_vip_dmv/web/server.py:121 | normalising twice equals normalising once |
| Server.FirstUnknown | nc_vip_dmv/web/server.py:127-129 | the first office outside the known set, absent exactly when all are known |
| Server.UpsertSubscription | nc_vip_dmv/web/server.py:116-131 | 503 without a store; 400 `invalid_payload` for an empty email or non-list offices; 400 `unknown_office: <first unknown>`; success exactly when none apply, and then the email's stored list is strictly ascending and holds exactly the given offices while every other email keeps its entry; a refusal changes nothing |
| Server.DeleteSubscription | nc_vip_dmv/web/server.py:134-142 | 503 without a store, 400 for an empty email, otherwise the email is removed and every other email keeps its entry and office list; a refusal changes nothing |
| Server.ExactBearer | nc_vip_dmv/web/server.py:110-111 | passing needs a non-empty trimmed admin token and a header that is the `Bearer ` prefix followed by exactly that token |
| Server.ListSubscriptions | nc_vip_dmv/web/server.py:107-113 | succeeds exactly when the trimmed admin token is non-empty and the header is exactly `Bearer <token>`, otherwise 403; on success the store, or empty without one |
| Server.TestGate | nc_vip_dmv/web/server.py:152-159 | checked in order: no admin token is 500 `admin_token_not_set`, a header without `Bearer ` is 401 `missing_bearer_token`, a different trimmed token is 403 `invalid_token`; accepted exactly when none apply |
| Server.ExactBearerPassesTestGate | nc_vip_dmv/web/server.py:110-111 | any header the exact gate accepts, the test-send gate accepts too |
| Server.TestGateTrimsToken | nc_vip_dmv/web/server.py:157-158 | the test-send gate accepts spaces around the token, which the exact gate refuses |
| Server.ApiTestSms | nc_vip_dmv/web/server.py:145-162 | 503, then 400 `sms_not_enabled`, then the gate's refusal if any, otherwise success; a text goes out exactly when notifications are on, SMS is configured and the trimmed test number is not empty, and it goes to that number |
| Server.ApiTestEmail | nc_vip_dmv/web/server.py:165-186 | 503, then 400 `email_not_enabled`, then the gate's refusal if any, then 400 `missing_test_to_email_env`, otherwise success; mail goes out exactly when notifications are on and email is configured, to the trimmed test address |
| Server.StartupCacheAsWritten | nc_vip_dmv/web/server.py:62-71 | the module-level cache after startup is empty whatever discovery returns |
| Server.DiscoveredOfficeRefusedAsWritten | nc_vip_dmv/web/server.py:62-71 | with the cache as the startup code leaves it, an office known only from discovery is refused as `unknown_office` |
| Server.StartupCache | nc_vip_dmv/web/server.py:62-71 | the intended cache: the discovered list itself, URLs and order included, or empty when discovery fails |
| Server.DiscoveredOfficeAccepted | nc_vip_dmv/web/server.py:126-130 | with the intended cache, a subscription to discovered offices succeeds and stores them |

## Left out

- Concurrency. The asyncio semaphore, `gather`, `create_task`, `sleep` and
  the polling loops are not modelled. One iteration is a sequential fold
  over the probe results in the order given.
- Detached send tasks. A send task runs later than the decision that starts
  it. `Deliver` models the checks the send task makes against the current
  settings; the transports (webhook, SMTP, Twilio) are out.
- File persistence. JSON reads and writes are not modelled. Loading is
  "parsed map, or empty on any failure"; the file contents are not
  validated.
- Time. `time.time()` is a float; the model uses integer seconds passed in
  as parameters.
- Scheduler.Iteration: one mark instant is used per iteration. The source
  reads the clock at each mark (nc_vip_dmv/core/state.py:52).
- Scheduler.HandleResult, Scheduler.Decide and Dispatch.Run: every mark of
  one call is stamped with the same `now`, for the same reason. Marks made
  within one result differ in the source by the time the loop takes.
- Probing. The probes (page scraping, the browsing agent) and office
  discovery are out; signatures are opaque strings.
- Office names and URLs. A probe result carries the office name and URL the
  checker echoes. The source's summary uses the configured URL
  (nc_vip_dmv/core/scheduler.py:104) and the decision the echoed one (:109).
  The model uses one name and one URL per outcome for both.
- Configuration and printing. Configuration parsing, the CLI, environment
  variable lookups and coloured console output are out; environment values
  are fields of `Settings` and `Service`.
- Scheduler.Recipients: subscribers are returned in ascending order. The
  source uses the store's insertion order. The set of recipients, and
  therefore the set of sends, is the same and only the order of email sends
  differs, except when two email keys coincide (see
  `Dispatch.EmailKeysCanCollide`). Then the order decides which recipient is
  mailed: the first candidate with a key takes it.
- Scheduler.SubscribedEmails: ascending order, for the same reason. The
  source lists the emails in the store's insertion order
  (nc_vip_dmv/core/scheduler.py:58).
- Text.Lower: only ASCII letters are lower-cased. Python's `str.lower()`
  also maps non-ASCII letters.
- Server.UpsertSubscription: the email and the offices are strings. A JSON
  payload may carry other values. A truthy non-string email makes `.strip()`
  raise, which answers 500. A hashable non-string office item (a number, a
  boolean) is reported as `unknown_office: <str() form>`. An unhashable item
  (a nested list or object) makes the membership test raise, which answers
  500.
- Message bodies. The titles and bodies of the messages are not modelled.
- The dashboard, health and results endpoints. They only return data.
- The office-discovery admin endpoint. Only its gate is modelled, as
  `ExactBearer`, which it shares with `ListSubscriptions`; the discovery is
  network scraping.
- Dispatch.DedupKeyInjective: the lemma needs signatures that do not start
  with a channel tag and recipients without `|`. The source does not enforce
  either; `EmailKeysCanCollide` shows what happens without the second.

## Findings

| source | as written | input that shows it | evidently intended | confidence | as-written member | corrected member |
|---|---|---|---|---|---|---|
| nc_vip_dmv/web/server.py:62-71 | the background task assigns the discovery result to `offices_cache` inside a nested function with no `global` declaration, so it binds a local name; the module-level cache stays empty | discovery returns an office `Cary` that is not configured; `POST /api/subscriptions` with offices `["Cary"]` answers 400 `unknown_office: Cary`, and `/api/offices?source=discovered` is always empty | the module-level cache holds the discovered offices, or stays empty when discovery fails | high, not executed | Server.DiscoveredOfficeRefusedAsWritten | Server.DiscoveredOfficeAccepted |

=== FILE: dispatch.dfy ===
/** Channels, their namespaced dedup keys, and the check-mark-send fold that
    decides which notifications are new. A send is the detached task the
    scheduler starts for one (channel, signature); it is an event here. */
module Dispatch {
  import opened Wrappers
  import opened DedupStore

  /** The three notification channels. Email is addressed to one recipient. */
  datatype Channel = Discord | Sms | Email(to: string)

  /** One notification decided for an office. */
  datatype Send = Send(channel: Channel, office: string, url: Option<string>, signature: string)

  /** The store state after a run of decisions, and the sends decided. */
  datatype Decision = Decision(store: Store, sends: seq<Send>)

  const SmsTag: string := "SMS|"
  const EmailTag: string := "EMAIL|"

  /** The dedup key of a signature on a channel: the bare signature for the
      broadcast channel, `"SMS|"` + signature for SMS, and
      `"EMAIL|"` + recipient + `"|"` + signature for email. */
  function DedupKey(c: Channel, signature: string): (r: string)
    ensures c.Discord? ==> r == signature
    ensures c.Sms? ==> |r| == |SmsTag| + |signature|
    ensures c.Email? ==> |r| == |EmailTag| + |c.to| + 1 + |signature|
  {
    match c
    case Discord => signature
    case Sms => SmsTag + signature
    case Email(to) => EmailTag + to + "|" + signature
  }

  /** A key is its channel's tag, then (for email) the recipient and a
      separator, then the signature itself. */
  lemma DedupKeyShape(c: Channel, signature: string)
    ensures var k := DedupKey(c, signature);
            && |signature| <= |k| && k[|k| - |signature|..] == signature
            && (c.Sms? ==> k[..|SmsTag|] == SmsTag)
            && (c.Email? ==> k[..|EmailTag|] == EmailTag && k[|EmailTag|..|EmailTag| + |c.to|] == c.to
                             && k[|EmailTag| + |c.to|] == '|')
  {
    if c.Email? {
      EmailKeyShape(c.to, signature);
    }
  }

  function Key(s: Send): string {
    DedupKey(s.channel, s.signature)
  }

  /** The (office, key) entry a send is recorded under. */
  function SlotOf(s: Send): (string, string) {
    (s.office, Key(s))
  }

  function Slots(xs: seq<Send>): set<(string, string)> {
    set x | x in xs :: SlotOf(x)
  }

  /** The store already records this send's key under its office. */
  predicate Noted(store: Store, s: Send) {
    WasSeen(store, s.office, Key(s))
  }

  /** Folds over the candidate sends in order: a candidate whose key is
      already recorded is dropped; otherwise its key is marked at `now` and
      the send is emitted. */
  function Run(store: Store, now: int, cands: seq<Send>): (r: Decision)
    ensures forall i :: 0 <= i < |r.sends| ==> r.sends[i] in cands && !Noted(store, r.sends[i])
    ensures forall i, j :: 0 <= i < j < |r.sends| ==> SlotOf(r.sends[i]) != SlotOf(r.sends[j])
    ensures r.store.ttlSeconds == store.ttlSeconds
    ensures forall c :: c in cands ==> Noted(r.store, c)
    ensures forall o, k :: WasSeen(store, o, k) ==> WasSeen(r.store, o, k)
    ensures (forall c :: c in cands ==> Noted(store, c)) ==> r == Decision(store, [])
    decreases |cands|
  {
    if cands == [] then Decision(store, [])
    else
      var c := cands[0];
      var rest := cands[1..];
      assert forall x :: x in cands <==> x == c || x in rest;
      if Noted(store, c) then
        Run(store, now, rest)
      else
        var marked := MarkSeen(store, c.office, Key(c), now);
        var d := Run(marked, now, rest);
        Decision(d.store, [c] + d.sends)
  }

  /** The slots among `cands` the store has not recorded yet. */
  function NewSlots(store: Store, cands: seq<Send>): set<(string, string)> {
    set c | c in cands && !Noted(store, c) :: SlotOf(c)
  }

  lemma NewSlotsNoted(store: Store, c: Send, rest: seq<Send>)
    requires Noted(store, c)
    ensures NewSlots(store, [c] + rest) == NewSlots(store, rest)
  {
    var cands := [c] + rest;
    forall y | y in NewSlots(store, cands)
      ensures y in NewSlots(store, rest)
    {
      var x :| x in cands && !Noted(store, x) && SlotOf(x) == y;
      assert x in rest;
    }
    forall y | y in NewSlots(store, rest)
      ensures y in NewSlots(store, cands)
    {
      var x :| x in rest && !Noted(store, x) && SlotOf(x) == y;
      assert x in cands;
    }
  }

  lemma NewSlotsMarked(store: Store, now: int, c: Send, rest: seq<Send>)
    requires !Noted(store, c)
    ensures NewSlots(store, [c] + rest)
            == {SlotOf(c)} + NewSlots(MarkSeen(store, c.office, Key(c), now), rest)
  {
    var cands := [c] + rest;
    var marked := MarkSeen(store, c.office, Key(c), now);
    forall y | y in NewSlots(store, cands)
      ensures y in {SlotOf(c)} + NewSlots(marked, rest)
    {
      var x :| x in cands && !Noted(store, x) && SlotOf(x) == y;
      if y != SlotOf(c) {
        assert x in rest && !Noted(marked, x);
      }
    }
    forall y | y in NewSlots(marked, rest)
      ensures y in NewSlots(store, cands)
    {
      var x :| x in rest && !Noted(marked, x) && SlotOf(x) == y;
      assert x in cands && !Noted(store, x);
    }
    assert c in cands;
  }

  /** The slots sent are exactly the candidates' slots the store did not
      yet record. */
  lemma {:induction false} RunSendsNewSlots(store: Store, now: int, cands: seq<Send>)
    ensures Slots(Run(store, now, cands).sends) == NewSlots(store, cands)
    decreases |cands|
  {
    if cands != [] {
      var c := cands[0];
      var rest := cands[1..];
      assert cands == [c] + rest;
      if Noted(store, c) {
        RunSendsNewSlots(store, now, rest);
        NewSlotsNoted(store, c, rest);
      } else {
        var marked := MarkSeen(store, c.office, Key(c), now);
        RunSendsNewSlots(marked, now, rest);
        NewSlotsMarked(store, now, c, rest);
        var d := Run(marked, now, rest);
        assert Slots([c] + d.sends) == {SlotOf(c)} + Slots(d.sends);
      }
    }
  }

  /** What the run records: every earlier entry with its old time, the
      candidates' slots new to the store stamped `now`, and nothing else;
      offices no candidate names are untouched. */
  lemma {:induction false} RunRecords(store: Store, now: int, cands: seq<Send>)
    ensures var r := Run(store, now, cands).store;
            && (forall o, k :: WasSeen(r, o, k) <==> WasSeen(store, o, k) || (o, k) in Slots(cands))
            && (forall o, k :: WasSeen(store, o, k) ==> WasSeen(r, o, k) && r.seen[o][k] == store.seen[o][k])
            && (forall o, k :: WasSeen(r, o, k) && !WasSeen(store, o, k) ==> r.seen[o][k] == now)
            && (NoEmptyOffices(store) ==> NoEmptyOffices(r))
    decreases |cands|
  {
    if cands != [] {
      var c := cands[0];
      var rest := cands[1..];
      assert forall x :: x in cands <==> x == c || x in rest;
      assert Slots(cands) == {SlotOf(c)} + Slots(rest);
      if Noted(store, c) {
        RunRecords(store, now, rest);
      } else {
        RunRecords(MarkSeen(store, c.office, Key(c), now), now, rest);
      }
    }
  }

  /** An office no candidate names keeps its entries exactly. */
  lemma {:induction false} RunLeavesOtherOffices(store: Store, now: int, cands: seq<Send>, office: string)
    requires forall c :: c in cands ==> c.office != office
    ensures var r := Run(store, now, cands).store;
            && (office in r.seen <==> office in store.seen)
            && (office in store.seen ==> r.seen[office] == store.seen[office])
    decreases |cands|
  {
    if cands != [] {
      var c := cands[0];
      if Noted(store, c) {
        RunLeavesOtherOffices(store, now, cands[1..], office);
      } else {
        RunLeavesOtherOffices(MarkSeen(store, c.office, Key(c), now), now, cands[1..], office);
      }
    }
  }

  /** Marking one send's slot leaves a send with another slot unrecorded. */
  lemma MarkKeepsOthersUnnoted(store: Store, now: int, c: Send, x: Send)
    requires !Noted(store, x) && SlotOf(x) != SlotOf(c)
    ensures !Noted(MarkSeen(store, c.office, Key(c), now), x)
  {
  }

  /** When no candidate is recorded yet and no two share a slot, every
      candidate is sent, in order. */
  lemma {:induction false} RunAllNew(store: Store, now: int, cands: seq<Send>)
    requires forall i :: 0 <= i < |cands| ==> !Noted(store, cands[i])
    requires forall i, j :: 0 <= i < j < |cands| ==> SlotOf(cands[i]) != SlotOf(cands[j])
    ensures Run(store, now, cands).sends == cands
    decreases |cands|
  {
    if cands != [] {
      var c := cands[0];
      var rest := cands[1..];
      var marked := MarkSeen(store, c.office, Key(c), now);
      forall j | 0 <= j < |rest|
        ensures !Noted(marked, rest[j])
      {
        assert rest[j] == cands[j + 1];
        MarkKeepsOthersUnnoted(store, now, c, rest[j]);
      }
      forall i, j | 0 <= i < j < |rest|
        ensures SlotOf(rest[i]) != SlotOf(rest[j])
      {
        assert rest[i] == cands[i + 1] && rest[j] == cands[j + 1];
      }
      RunAllNew(marked, now, rest);
      assert !Noted(store, c);
      assert Run(store, now, cands) == Decision(Run(marked, now, rest).store, [c] + Run(marked, now, rest).sends);
      assert cands == [c] + rest;
    }
  }

  /** Deciding `a` and then `b` is deciding `a + b`. */
  lemma {:induction false} RunAppend(store: Store, now: int, a: seq<Send>, b: seq<Send>)
    ensures var d1 := Run(store, now, a);
            var d2 := Run(d1.store, now, b);
            Run(store, now, a + b) == Decision(d2.store, d1.sends + d2.sends)
    decreases |a|
  {
    if a == [] {
      assert a + b == b;
    } else {
      var c := a[0];
      assert (a + b)[0] == c;
      assert (a + b)[1..] == a[1..] + b;
      var next := if Noted(store, c) then store else MarkSeen(store, c.office, Key(c), now);
      RunAppend(next, now, a[1..], b);
      var d1 := Run(next, now, a[1..]);
      var d2 := Run(d1.store, now, b);
      if !Noted(store, c) {
        assert [c] + d1.sends + d2.sends == [c] + (d1.sends + d2.sends);
      }
    }
  }

  /** Without a `|` in the recipients and without a signature that itself
      starts with a channel tag, distinct (channel, signature) pairs get
      distinct keys: the channels' dedup states cannot collide. */
  lemma DedupKeyInjective(c1: Channel, s1: string, c2: Channel, s2: string)
    requires !StartsWithTag(s1) && !StartsWithTag(s2)
    requires c1.Email? ==> '|' !in c1.to
    requires c2.Email? ==> '|' !in c2.to
    requires DedupKey(c1, s1) == DedupKey(c2, s2)
    ensures c1 == c2 && s1 == s2
  {
    KeyHead(c1, s1);
    KeyHead(c2, s2);
    match (c1, c2)
    case (Discord, Sms) =>
    case (Sms, Discord) =>
    case (Discord, Email(_)) =>
    case (Email(_), Discord) =>
    case (Sms, Email(_)) =>
    case (Email(_), Sms) =>
    case (Sms, Sms) =>
      assert s1 == DedupKey(c1, s1)[|SmsTag|..] == s2;
    case (Email(t1), Email(t2)) =>
      EmailKeySplit(t1, s1, t2, s2);
    case (Discord, Discord) =>
  }

  predicate StartsWithTag(s: string) {
    (|SmsTag| <= |s| && s[..|SmsTag|] == SmsTag) || (|EmailTag| <= |s| && s[..|EmailTag|] == EmailTag)
  }

  lemma KeyHead(c: Channel, s: string)
    ensures c.Sms? ==> |DedupKey(c, s)| > 0 && DedupKey(c, s)[0] == 'S'
    ensures c.Email? ==> |DedupKey(c, s)| > 0 && DedupKey(c, s)[0] == 'E'
  {
  }

  /** Where the recipient, the separator and the signature sit in an email key. */
  lemma EmailKeyShape(t: string, s: string)
    ensures var k := EmailTag + t + "|" + s;
            var n := |EmailTag|;
            && |k| == n + |t| + 1 + |s|
            && (forall i :: 0 <= i < |t| ==> k[n + i] == t[i])
            && k[n + |t|] == '|'
            && k[n..n + |t|] == t
            && k[n + |t| + 1..] == s
  {
  }

  lemma EmailKeySplit(t1: string, s1: string, t2: string, s2: string)
    requires '|' !in t1 && '|' !in t2
    requires EmailTag + t1 + "|" + s1 == EmailTag + t2 + "|" + s2
    ensures t1 == t2 && s1 == s2
  {
    EmailKeyShape(t1, s1);
    EmailKeyShape(t2, s2);
  }

  /** With a `|` in a recipient the email keys can collide: recipient
      `a|b` with signature `c` and recipient `a` with signature `b|c` share a key. */
  lemma EmailKeysCanCollide()
    ensures DedupKey(Email("a|b"), "c") == DedupKey(Email("a"), "b|c")
    ensures Email("a|b") != Email("a")
  {
  }
}

=== FILE: ordering.dfy ===
/** Python's ordering of `str` values (code point by code point, a proper
    prefix first) and `sorted(set(...))` over it. */
module StringOrder {

  /** `a < b` on Python strings. */
  predicate Less(a: string, b: string)
    ensures Less(a, b) ==> a != b
    ensures |a| < |b| && a == b[..|a|] ==> Less(a, b)
    decreases |a|
  {
    assert |a| > 0 && |a| < |b| && a == b[..|a|] ==> a[1..] == b[1..][..|a| - 1];
    if |a| == 0 then |b| > 0
    else if |b| == 0 then false
    else if a[0] != b[0] then a[0] < b[0]
    else Less(a[1..], b[1..])
  }

  lemma {:induction false} LessIrreflexive(a: string)
    ensures !Less(a, a)
    decreases |a|
  {
    if |a| > 0 {
      LessIrreflexive(a[1..]);
    }
  }

  lemma {:induction false} LessTransitive(a: string, b: string, c: string)
    requires Less(a, b) && Less(b, c)
    ensures Less(a, c)
    decreases |a|
  {
    if |a| > 0 && a[0] == b[0] && b[0] == c[0] {
      LessTransitive(a[1..], b[1..], c[1..]);
    }
  }

  lemma {:induction false} LessTotal(a: string, b: string)
    ensures a == b || Less(a, b) || Less(b, a)
    decreases |a|
  {
    if |a| > 0 && |b| > 0 && a[0] == b[0] {
      LessTotal(a[1..], b[1..]);
      if a[1..] == b[1..] {
        assert a == [a[0]] + a[1..] && b == [b[0]] + b[1..];
      }
    }
  }

  lemma LessAsymmetric(a: string, b: string)
    requires Less(a, b)
    ensures !Less(b, a)
  {
    if Less(b, a) {
      LessTransitive(a, b, a);
      LessIrreflexive(a);
    }
  }

  /** Ascending with no repeats, as `sorted(set(xs))` and `sorted(d.keys())` are. */
  predicate StrictlySorted(xs: seq<string>) {
    forall i, j :: 0 <= i < j < |xs| ==> Less(xs[i], xs[j])
  }

  predicate IsMin(m: string, s: set<string>) {
    m in s && forall y :: y in s ==> !Less(y, m)
  }

  lemma {:induction false} MinExists(s: set<string>)
    requires s != {}
    ensures exists m :: IsMin(m, s)
  {
    var x :| x in s;
    if s == {x} {
      LessIrreflexive(x);
      assert IsMin(x, s);
    } else {
      MinExists(s - {x});
      var m :| IsMin(m, s - {x});
      if Less(x, m) {
        forall y | y in s
          ensures !Less(y, x)
        {
          if y == x {
            LessIrreflexive(x);
          } else if Less(y, x) {
            LessTransitive(y, x, m);
          }
        }
        assert IsMin(x, s);
      } else {
        assert IsMin(m, s);
      }
    }
  }

  lemma MinIsUnique(s: set<string>)
    ensures forall a, b :: IsMin(a, s) && IsMin(b, s) ==> a == b
  {
    forall a, b | IsMin(a, s) && IsMin(b, s)
      ensures a == b
    {
      LessTotal(a, b);
    }
  }

  lemma MinBelowOthers(m: string, s: set<string>)
    requires IsMin(m, s)
    ensures forall y :: y in s && y != m ==> Less(m, y)
  {
    forall y | y in s && y != m
      ensures Less(m, y)
    {
      LessTotal(m, y);
    }
  }

  /** `sorted(s)` for a set of strings: every member exactly once, ascending. */
  function SortedOfSet(s: set<string>): (r: seq<string>)
    ensures StrictlySorted(r)
    ensures forall x :: x in r <==> x in s
    ensures |r| == |s|
    decreases s
  {
    if s == {} then []
    else
      MinExists(s);
      MinIsUnique(s);
      var m :| IsMin(m, s);
      MinBelowOthers(m, s);
      var rest := SortedOfSet(s - {m});
      assert forall j :: 0 <= j < |rest| ==> rest[j] in s - {m};
      [m] + rest
  }

  /** A strictly sorted sequence is determined by its elements. */
  lemma {:induction false} SortedUnique(a: seq<string>, b: seq<string>)
    requires StrictlySorted(a) && StrictlySorted(b)
    requires forall x :: x in a <==> x in b
    ensures a == b
    decreases |a|
  {
    if a != [] {
      assert a[0] in b;
    }
    if b != [] {
      assert b[0] in a;
    }
    if a != [] {
      if a[0] != b[0] {
        assert a[0] in b;
        assert b[0] in a;
        var i :| 0 <= i < |a| && a[i] == b[0];
        var j :| 0 <= j < |b| && b[j] == a[0];
        assert Less(a[0], a[i]);
        assert Less(b[0], b[j]);
        LessAsymmetric(a[0], b[0]);
      }
      forall x
        ensures x in a[1..] <==> x in b[1..]
      {
        if x in a[1..] {
          var i :| 1 <= i < |a| && a[i] == x;
          assert Less(a[0], x);
          LessIrreflexive(x);
          assert x in b && x != b[0];
        }
        if x in b[1..] {
          var j :| 1 <= j < |b| && b[j] == x;
          assert Less(b[0], x);
          LessIrreflexive(x);
          assert x in a && x != a[0];
        }
      }
      SortedUnique(a[1..], b[1..]);
      assert a == [a[0]] + a[1..] && b == [b[0]] + b[1..];
    }
  }
}

=== FILE: scheduler.dfy ===
/** One polling iteration of the scheduler with its concurrency and clock
    turned into parameters: the run-plan checks, the per-office summary, the
    recipients of the email channel, the candidate sends of one office result
    and the decision over them, and the delivery re-checks each detached
    send task makes before it talks to a transport. */
module Scheduler {
  import opened Wrappers
  import opened Text
  import opened StringOrder
  import opened DedupStore
  import Subscriptions
  import opened Dispatch

  /** The notifier settings the decision reads: the global switch, each
      channel's enabled flag and whether its credentials are present, and the
      raw values of the two test-recipient environment variables. */
  datatype Settings = Settings(
    notificationsEnabled: bool,
    discordEnabled: bool, discordConfigured: bool,
    smsEnabled: bool, smsConfigured: bool, smsTestTo: string,
    emailEnabled: bool, emailConfigured: bool, emailTestTo: string)

  /** The synthetic signature used when a probe reports availability but no slots. */
  const Placeholder: string := "AVAILABLE"

  function EffectiveSignatures(signatures: seq<string>): (r: seq<string>)
    ensures |r| > 0
    ensures signatures != [] ==> r == signatures
    ensures signatures == [] ==> r == [Placeholder]
  {
    if signatures == [] then [Placeholder] else signatures
  }

  // ---------------------------------------------------------------------
  // Recipients of the email channel

  /** The emails among `emails` whose stored office list names `office`, in
      the order of `emails`. */
  function FollowersAmong(emails: seq<string>, subs: Subscriptions.Store, office: string): (r: seq<string>)
    ensures forall e :: e in r <==> e in emails && e in subs && office in subs[e]
    ensures StrictlySorted(emails) ==> StrictlySorted(r)
    decreases |emails|
  {
    if emails == [] then []
    else
      var rest := FollowersAmong(emails[1..], subs, office);
      var e := emails[0];
      assert forall x :: x in emails <==> x == e || x in emails[1..];
      if e in subs && office in subs[e] then
        assert StrictlySorted(emails) ==> forall j :: 0 <= j < |rest| ==> rest[j] in emails[1..];
        [e] + rest
      else rest
  }

  /** The subscribers following `office`, each once. */
  function SubscribedEmails(subs: Subscriptions.Store, office: string): (r: seq<string>)
    ensures StrictlySorted(r)
    ensures forall e :: e in r <==> e in subs && office in subs[e]
  {
    FollowersAmong(Subscriptions.ListEmails(subs), subs, office)
  }

  predicate NoFollowers(subs: Subscriptions.Store, office: string) {
    forall e :: e in subs ==> office !in subs[e]
  }

  /** The email recipients for `office`: its subscribers; when it has none,
      the trimmed test address if that is not empty; otherwise nobody. */
  function Recipients(settings: Settings, subs: Subscriptions.Store, office: string): (r: seq<string>)
    ensures StrictlySorted(r)
    ensures forall e :: e in r <==>
              || (e in subs && office in subs[e])
              || (NoFollowers(subs, office) && e == Strip(settings.emailTestTo) && e != "")
  {
    var subscribed := SubscribedEmails(subs, office);
    if subscribed != [] then
      assert !NoFollowers(subs, office) by {
        assert subscribed[0] in subscribed;
      }
      subscribed
    else
      var fallback := Strip(settings.emailTestTo);
      if fallback != "" then [fallback] else []
  }

  // ---------------------------------------------------------------------
  // Candidate sends and the decision for one office result

  /** Whether the decision considers `c` at all for `office`: Discord needs
      only its enabled flag, SMS and email also need their credentials, and
      email only addresses the office's recipients. */
  predicate ChannelOpen(settings: Settings, subs: Subscriptions.Store, office: string, c: Channel) {
    match c
    case Discord => settings.discordEnabled
    case Sms => settings.smsEnabled && settings.smsConfigured
    case Email(to) => settings.emailEnabled && settings.emailConfigured && to in Recipients(settings, subs, office)
  }

  /** The sends the decision considers for one office result. */
  predicate Considered(settings: Settings, subs: Subscriptions.Store, office: string, url: Option<string>,
                       available: bool, signatures: seq<string>, x: Send)
  {
    && available
    && settings.notificationsEnabled
    && x.office == office
    && x.url == url
    && x.signature in EffectiveSignatures(signatures)
    && ChannelOpen(settings, subs, office, x.channel)
  }

  function PerSignature(c: Channel, office: string, url: Option<string>, signatures: seq<string>): (r: seq<Send>)
    ensures forall x :: x in r <==> x.channel == c && x.office == office && x.url == url && x.signature in signatures
    ensures forall i :: 0 <= i < |r| ==> r[i].channel == c
  {
    var r := seq(|signatures|, i requires 0 <= i < |signatures| => Send(c, office, url, signatures[i]));
    assert forall x :: x in r ==> exists i :: 0 <= i < |signatures| && x == Send(c, office, url, signatures[i]);
    assert forall i :: 0 <= i < |signatures| ==> r[i] == Send(c, office, url, signatures[i]);
    r
  }

  /** Every recipient in turn, every signature for each. */
  function EmailFanout(recipients: seq<string>, office: string, url: Option<string>, signatures: seq<string>): (r: seq<Send>)
    ensures forall x :: x in r <==>
              x.channel.Email? && x.channel.to in recipients && x.office == office && x.url == url && x.signature in signatures
    ensures forall i :: 0 <= i < |r| ==> r[i].channel.Email?
    decreases |recipients|
  {
    if recipients == [] then []
    else
      assert forall t :: t in recipients <==> t == recipients[0] || t in recipients[1..];
      PerSignature(Email(recipients[0]), office, url, signatures)
        + EmailFanout(recipients[1..], office, url, signatures)
  }

  /** The candidate sends in the order the source visits them: Discord per
      signature, then SMS per signature, then per recipient per signature. */
  function Candidates(settings: Settings, subs: Subscriptions.Store, office: string, url: Option<string>,
                      available: bool, signatures: seq<string>): (r: seq<Send>)
    ensures forall x :: x in r <==> Considered(settings, subs, office, url, available, signatures, x)
  {
    if !(available && settings.notificationsEnabled) then []
    else
      var sigs := EffectiveSignatures(signatures);
      (if settings.discordEnabled then PerSignature(Discord, office, url, sigs) else [])
      + (if settings.smsEnabled && settings.smsConfigured then PerSignature(Sms, office, url, sigs) else [])
      + (if settings.emailEnabled && settings.emailConfigured
         then EmailFanout(Recipients(settings, subs, office), office, url, sigs) else [])
  }

  /** Where a channel's sends come in the candidate order. */
  function ChannelRank(c: Channel): nat {
    match c
    case Discord => 0
    case Sms => 1
    case Email(_) => 2
  }

  /** Every send of `xs` is on a channel of rank `k`. */
  predicate AllRank(xs: seq<Send>, k: nat) {
    forall i :: 0 <= i < |xs| ==> ChannelRank(xs[i].channel) == k
  }

  /** Blocks of increasing channel rank, concatenated, are in channel order. */
  lemma RankedBlocks(a: seq<Send>, b: seq<Send>, c: seq<Send>)
    requires AllRank(a, 0) && AllRank(b, 1) && AllRank(c, 2)
    ensures forall i, j :: 0 <= i < j < |a + b + c| ==>
              ChannelRank((a + b + c)[i].channel) <= ChannelRank((a + b + c)[j].channel)
  {
    var r := a + b + c;
    forall i | 0 <= i < |r|
      ensures ChannelRank(r[i].channel) == if i < |a| then 0 else if i < |a| + |b| then 1 else 2
    {
      if i < |a| { assert r[i] == a[i]; }
      else if i < |a| + |b| { assert r[i] == b[i - |a|]; }
      else { assert r[i] == c[i - |a| - |b|]; }
    }
  }

  /** The candidates come channel by channel: no Discord send after an SMS
      or email send, and no SMS send after an email send. */
  lemma {:induction false} CandidatesChannelOrder(settings: Settings, subs: Subscriptions.Store, office: string,
                                                  url: Option<string>, available: bool, signatures: seq<string>)
    ensures var r := Candidates(settings, subs, office, url, available, signatures);
            forall i, j :: 0 <= i < j < |r| ==> ChannelRank(r[i].channel) <= ChannelRank(r[j].channel)
  {
    if available && settings.notificationsEnabled {
      var sigs := EffectiveSignatures(signatures);
      var a := if settings.discordEnabled then PerSignature(Discord, office, url, sigs) else [];
      var b := if settings.smsEnabled && settings.smsConfigured then PerSignature(Sms, office, url, sigs) else [];
      var c := if settings.emailEnabled && settings.emailConfigured
               then EmailFanout(Recipients(settings, subs, office), office, url, sigs) else [];
      assert AllRank(a, 0) && AllRank(b, 1) && AllRank(c, 2);
      RankedBlocks(a, b, c);
    }
  }

  /** The decision for one office result: every considered send whose
      (office, key) is not yet recorded is marked and emitted, once; nothing
      happens when the office is unavailable or notifications are off. */
  function HandleResult(store: Store, now: int, settings: Settings, subs: Subscriptions.Store,
                        office: string, url: Option<string>, available: bool, signatures: seq<string>): (r: Decision)
    ensures !available || !settings.notificationsEnabled ==> r == Decision(store, [])
    ensures forall i :: 0 <= i < |r.sends| ==>
              Considered(settings, subs, office, url, available, signatures, r.sends[i]) && !Noted(store, r.sends[i])
    ensures forall i, j :: 0 <= i < j < |r.sends| ==> Key(r.sends[i]) != Key(r.sends[j])
    ensures forall x :: Considered(settings, subs, office, url, available, signatures, x) ==> Noted(r.store, x)
    ensures forall o, k :: WasSeen(store, o, k) ==> WasSeen(r.store, o, k)
    ensures r.store.ttlSeconds == store.ttlSeconds
  {
    Run(store, now, Candidates(settings, subs, office, url, available, signatures))
  }

  /** Every considered send whose key was not recorded is emitted (under the
      key it shares with the emitted send, when two channels' keys coincide). */
  lemma HandleResultComplete(store: Store, now: int, settings: Settings, subs: Subscriptions.Store,
                             office: string, url: Option<string>, available: bool, signatures: seq<string>, x: Send)
    requires Considered(settings, subs, office, url, available, signatures, x)
    requires !Noted(store, x)
    ensures SlotOf(x) in Slots(HandleResult(store, now, settings, subs, office, url, available, signatures).sends)
  {
    var cands := Candidates(settings, subs, office, url, available, signatures);
    RunSendsNewSlots(store, now, cands);
    assert SlotOf(x) in NewSlots(store, cands);
  }

  /** Only `office` gains entries, each stamped `now`; every earlier entry
      keeps its time and every other office is left exactly as it was. */
  lemma HandleResultRecords(store: Store, now: int, settings: Settings, subs: Subscriptions.Store,
                            office: string, url: Option<string>, available: bool, signatures: seq<string>)
    ensures var r := HandleResult(store, now, settings, subs, office, url, available, signatures).store;
            && (forall o, k :: WasSeen(r, o, k) <==>
                  || WasSeen(store, o, k)
                  || exists x :: Considered(settings, subs, office, url, available, signatures, x) && SlotOf(x) == (o, k))
            && (forall o, k :: WasSeen(store, o, k) ==> WasSeen(r, o, k) && r.seen[o][k] == store.seen[o][k])
            && (forall o, k :: WasSeen(r, o, k) && !WasSeen(store, o, k) ==> o == office && r.seen[o][k] == now)
            && (forall o :: o != office ==> (o in r.seen <==> o in store.seen))
            && (forall o :: o != office && o in store.seen ==> r.seen[o] == store.seen[o])
  {
    var cands := Candidates(settings, subs, office, url, available, signatures);
    RunRecords(store, now, cands);
    forall o, k
      ensures (o, k) in Slots(cands) <==>
                exists x :: Considered(settings, subs, office, url, available, signatures, x) && SlotOf(x) == (o, k)
    {
      if (o, k) in Slots(cands) {
        var x :| x in cands && SlotOf(x) == (o, k);
      }
      if exists x :: Considered(settings, subs, office, url, available, signatures, x) && SlotOf(x) == (o, k) {
        var x :| Considered(settings, subs, office, url, available, signatures, x) && SlotOf(x) == (o, k);
        assert x in cands;
      }
    }
    forall o | o != office
      ensures var r := Run(store, now, cands).store;
              (o in r.seen <==> o in store.seen) && (o in store.seen ==> r.seen[o] == store.seen[o])
    {
      RunLeavesOtherOffices(store, now, cands, o);
    }
  }

  /** Handling the same result again, against the state the first handling
      left, emits nothing on any channel and changes nothing. */
  lemma HandleResultTwice(store: Store, now: int, now': int, settings: Settings, subs: Subscriptions.Store,
                          office: string, url: Option<string>, available: bool, signatures: seq<string>)
    ensures var first := HandleResult(store, now, settings, subs, office, url, available, signatures);
            HandleResult(first.store, now', settings, subs, office, url, available, signatures)
              == Decision(first.store, [])
  {
  }

  // ---------------------------------------------------------------------
  // What a detached send task does when it runs

  /** A call into a transport: a webhook post, a text message or an email. */
  datatype Delivery =
    | Post(office: string, url: Option<string>, signature: string)
    | TextMessage(to: string, office: string, url: Option<string>, signature: string)
    | Mail(to: string, office: string, url: Option<string>, signature: string)

  /** The transport call a send task makes, if any: each task re-checks the
      global switch and its channel's flags; Discord also needs a webhook and
      SMS a non-empty test number, which the decision did not look at. */
  function Deliver(settings: Settings, s: Send): (r: Option<Delivery>)
    ensures r.Some? ==> settings.notificationsEnabled
    ensures s.channel.Discord? ==>
              (r.Some? <==> settings.notificationsEnabled && settings.discordEnabled && settings.discordConfigured)
    ensures s.channel.Sms? ==>
              (r.Some? <==> settings.notificationsEnabled && settings.smsEnabled && settings.smsConfigured
                            && Strip(settings.smsTestTo) != "")
    ensures s.channel.Email? ==>
              (r.Some? <==> settings.notificationsEnabled && settings.emailEnabled && settings.emailConfigured)
    ensures r.Some? ==> r.value.office == s.office && r.value.url == s.url && r.value.signature == s.signature
    ensures r.Some? && s.channel.Discord? ==> r == Some(Post(s.office, s.url, s.signature))
    ensures r.Some? && s.channel.Email? ==> r == Some(Mail(s.channel.to, s.office, s.url, s.signature))
    ensures r.Some? && s.channel.Sms? ==> r == Some(TextMessage(Strip(settings.smsTestTo), s.office, s.url, s.signature))
  {
    if !settings.notificationsEnabled then None
    else match s.channel
      case Discord =>
        if settings.discordEnabled && settings.discordConfigured then Some(Post(s.office, s.url, s.signature)) else None
      case Sms =>
        var to := Strip(settings.smsTestTo);
        if settings.smsEnabled && settings.smsConfigured && to != "" then Some(TextMessage(to, s.office, s.url, s.signature)) else None
      case Email(to) =>
        if settings.emailEnabled && settings.emailConfigured then Some(Mail(to, s.office, s.url, s.signature)) else None
  }

  /** With Discord enabled but no webhook, a new signature is still marked
      and its send task started, but that send task posts nothing: the slot stays
      silenced on Discord for the TTL even if a webhook is added meanwhile. */
  lemma DiscordMarkedWithoutWebhook(store: Store, now: int, settings: Settings, subs: Subscriptions.Store,
                                    office: string, url: Option<string>, signatures: seq<string>, sig: string)
    requires settings.notificationsEnabled && settings.discordEnabled && !settings.discordConfigured
    requires sig in EffectiveSignatures(signatures)
    ensures var d := HandleResult(store, now, settings, subs, office, url, true, signatures);
            && WasSeen(d.store, office, sig)
            && forall i :: 0 <= i < |d.sends| && d.sends[i].channel.Discord? ==> Deliver(settings, d.sends[i]).None?
  {
    assert Considered(settings, subs, office, url, true, signatures, Send(Discord, office, url, sig));
  }

  // ---------------------------------------------------------------------
  // The per-office summary and the run plan

  const SampleLimit: nat := 5

  /** The summary kept for the dashboard. */
  datatype OfficeSummary = OfficeSummary(office: string, url: Option<string>, available: bool,
                                         count: nat, samples: seq<string>)

  /** The summary of one probe result: the signature count and at most the
      first five signatures, in order. */
  function Summarise(office: string, url: Option<string>, available: bool, signatures: seq<string>): (r: OfficeSummary)
    ensures r.office == office && r.url == url && r.available == available
    ensures r.count == |signatures|
    ensures r.samples <= signatures
    ensures |r.samples| == if |signatures| < SampleLimit then |signatures| else SampleLimit
  {
    var n := if |signatures| < SampleLimit then |signatures| else SampleLimit;
    OfficeSummary(office, url, available, |signatures|, signatures[..n])
  }

  datatype Checker = Playwright | BrowserUse

  datatype RunPlan = RunPlan(checker: Checker, interval: int, concurrency: int)

  /** The probe strategy name in force: the override unless it is missing
      or empty, else the configured one. */
  function SelectedChecker(override: Option<string>, configured: string): (r: string)
    ensures override.Some? && override.value != "" ==> r == override.value
    ensures override.None? || override.value == "" ==> r == configured
  {
    if override.Some? && override.value != "" then override.value else configured
  }

  function AtLeastOne(x: int): (r: int)
    ensures r >= 1 && r >= x
    ensures x >= 1 ==> r == x
    ensures x < 1 ==> r == 1
  {
    if x < 1 then 1 else x
  }

  /** Validates the configuration before the loop starts: interval and
      concurrency are raised to at least one, and a probe strategy other than
      `playwright` or `browseruse` is refused with its name in the message. */
  function PlanRun(override: Option<string>, configured: string, interval: int, concurrency: int): (r: Result<RunPlan, string>)
    ensures r.Success? <==> SelectedChecker(override, configured) in {"playwright", "browseruse"}
    ensures r.Success? ==> r.value.interval >= 1 && r.value.concurrency >= 1
    ensures r.Success? ==> r.value.interval == AtLeastOne(interval) && r.value.concurrency == AtLeastOne(concurrency)
    ensures r.Success? ==> r.value.interval >= interval && r.value.concurrency >= concurrency
    ensures r.Success? && interval >= 1 ==> r.value.interval == interval
    ensures r.Success? && concurrency >= 1 ==> r.value.concurrency == concurrency
    ensures r.Success? ==> (r.value.checker == Playwright <==> SelectedChecker(override, configured) == "playwright")
    ensures r.Failure? ==> r.error == "Unknown checker type: " + SelectedChecker(override, configured)
  {
    var name := SelectedChecker(override, configured);
    var i := AtLeastOne(interval);
    var c := AtLeastOne(concurrency);
    if name == "playwright" then Success(RunPlan(Playwright, i, c))
    else if name == "browseruse" then Success(RunPlan(BrowserUse, i, c))
    else Failure("Unknown checker type: " + name)
  }

  // ---------------------------------------------------------------------
  // One iteration

  /** What the probe of one office gave: a result, or an error that is
      logged and dropped. */
  datatype ProbeOutcome =
    | Probed(office: string, url: Option<string>, available: bool, signatures: seq<string>)
    | ProbeFailed(office: string)

  datatype IterationResult = IterationResult(store: Store, results: seq<OfficeSummary>, sends: seq<Send>)

  /** The outcomes that are results, in order. */
  function Succeeded(outcomes: seq<ProbeOutcome>): (r: seq<ProbeOutcome>)
    ensures forall i :: 0 <= i < |r| ==> r[i].Probed?
    ensures |r| <= |outcomes|
    decreases |outcomes|
  {
    if outcomes == [] then []
    else (if outcomes[0].Probed? then [outcomes[0]] else []) + Succeeded(outcomes[1..])
  }

  /** The successful outcomes are exactly the results among the outcomes. */
  lemma {:induction false} SucceededMembers(outcomes: seq<ProbeOutcome>)
    ensures forall x :: x in Succeeded(outcomes) <==> x in outcomes && x.Probed?
    decreases |outcomes|
  {
    if outcomes != [] {
      SucceededMembers(outcomes[1..]);
      assert forall x :: x in outcomes <==> x == outcomes[0] || x in outcomes[1..];
    }
  }

  function SummaryOf(o: ProbeOutcome): OfficeSummary
    requires o.Probed?
  {
    Summarise(o.office, o.url, o.available, o.signatures)
  }

  /** All candidate sends of the outcomes, outcome by outcome. */
  function AllCandidates(settings: Settings, subs: Subscriptions.Store, outcomes: seq<ProbeOutcome>): (r: seq<Send>)
    ensures forall x :: x in r <==>
              exists o :: o in outcomes && o.Probed? && Considered(settings, subs, o.office, o.url, o.available, o.signatures, x)
    decreases |outcomes|
  {
    if outcomes == [] then []
    else
      var o := outcomes[0];
      assert forall p :: p in outcomes <==> p == o || p in outcomes[1..];
      (if o.Probed? then Candidates(settings, subs, o.office, o.url, o.available, o.signatures) else [])
        + AllCandidates(settings, subs, outcomes[1..])
  }

  /** The summaries an iteration publishes: one per successful probe, in
      the order the probes finish; a failed probe adds none. */
  function Summaries(outcomes: seq<ProbeOutcome>): (r: seq<OfficeSummary>)
    ensures |r| == |Succeeded(outcomes)|
    ensures forall i :: 0 <= i < |r| ==> r[i] == SummaryOf(Succeeded(outcomes)[i])
    decreases |outcomes|
  {
    if outcomes == [] then []
    else
      var o := outcomes[0];
      var rest := Summaries(outcomes[1..]);
      if o.Probed? then
        assert Succeeded(outcomes) == [o] + Succeeded(outcomes[1..]);
        var r := [SummaryOf(o)] + rest;
        assert forall i :: 1 <= i < |r| ==> r[i] == rest[i - 1];
        r
      else
        assert Succeeded(outcomes) == Succeeded(outcomes[1..]);
        rest
  }

  /** Handles the results in the order they arrive, each against the store
      the previous one left; a failed probe decides nothing. */
  function Decide(store: Store, now: int, settings: Settings, subs: Subscriptions.Store,
                  outcomes: seq<ProbeOutcome>): (r: Decision)
    ensures r.store.ttlSeconds == store.ttlSeconds
    ensures forall o, k :: WasSeen(store, o, k) ==> WasSeen(r.store, o, k)
    ensures forall i :: 0 <= i < |r.sends| ==> !Noted(store, r.sends[i])
    decreases |outcomes|
  {
    if outcomes == [] then Decision(store, [])
    else
      var o := outcomes[0];
      if o.Probed? then
        var d := HandleResult(store, now, settings, subs, o.office, o.url, o.available, o.signatures);
        var rest := Decide(d.store, now, settings, subs, outcomes[1..]);
        Decision(rest.store, d.sends + rest.sends)
      else
        Decide(store, now, settings, subs, outcomes[1..])
  }

  /** Handling the outcomes one by one decides exactly what one run over all
      their candidates decides. */
  lemma {:induction false} DecideIsOneRun(store: Store, now: int, settings: Settings, subs: Subscriptions.Store,
                                          outcomes: seq<ProbeOutcome>)
    ensures Decide(store, now, settings, subs, outcomes) == Run(store, now, AllCandidates(settings, subs, outcomes))
    decreases |outcomes|
  {
    if outcomes != [] {
      var o := outcomes[0];
      var tail := AllCandidates(settings, subs, outcomes[1..]);
      if o.Probed? {
        var cands := Candidates(settings, subs, o.office, o.url, o.available, o.signatures);
        RunAppend(store, now, cands, tail);
        DecideIsOneRun(Run(store, now, cands).store, now, settings, subs, outcomes[1..]);
      } else {
        assert AllCandidates(settings, subs, outcomes) == tail;
        DecideIsOneRun(store, now, settings, subs, outcomes[1..]);
      }
    }
  }

  /** One iteration: purge at `purgeAt`, then handle every outcome, marking
      at `markAt`. */
  function Iteration(store: Store, purgeAt: int, markAt: int, settings: Settings, subs: Subscriptions.Store,
                     outcomes: seq<ProbeOutcome>): (r: IterationResult)
    ensures |r.results| == |Succeeded(outcomes)|
    ensures forall i :: 0 <= i < |r.results| ==> r.results[i] == SummaryOf(Succeeded(outcomes)[i])
    ensures forall i :: 0 <= i < |r.sends| ==> !Noted(PurgeExpired(store, purgeAt), r.sends[i])
    ensures forall i, j :: 0 <= i < j < |r.sends| ==> SlotOf(r.sends[i]) != SlotOf(r.sends[j])
    ensures Slots(r.sends) == NewSlots(PurgeExpired(store, purgeAt), AllCandidates(settings, subs, outcomes))
    ensures var p := PurgeExpired(store, purgeAt);
            && r.store.ttlSeconds == store.ttlSeconds
            && (forall o, k :: WasSeen(r.store, o, k) <==>
                  WasSeen(p, o, k) || (o, k) in Slots(AllCandidates(settings, subs, outcomes)))
            && (forall o, k :: WasSeen(p, o, k) ==> r.store.seen[o][k] == p.seen[o][k])
            && (forall o, k :: WasSeen(r.store, o, k) && !WasSeen(p, o, k) ==> r.store.seen[o][k] == markAt)
  {
    RunSendsNewSlots(PurgeExpired(store, purgeAt), markAt, AllCandidates(settings, subs, outcomes));
    RunRecords(PurgeExpired(store, purgeAt), markAt, AllCandidates(settings, subs, outcomes));
    var d := Decide(PurgeExpired(store, purgeAt), markAt, settings, subs, outcomes);
    DecideIsOneRun(PurgeExpired(store, purgeAt), markAt, settings, subs, outcomes);
    IterationResult(d.store, Summaries(outcomes), d.sends)
  }

  /** Repeating an iteration at the same instants with the same outcomes
      sends nothing more and leaves the store as the first left it, provided
      the marks are not already expired at the purge instant. */
  lemma IterationRepeatSilent(store: Store, purgeAt: int, markAt: int, settings: Settings,
                                subs: Subscriptions.Store, outcomes: seq<ProbeOutcome>)
    requires purgeAt - markAt <= store.ttlSeconds
    ensures var r1 := Iteration(store, purgeAt, markAt, settings, subs, outcomes);
            var r2 := Iteration(r1.store, purgeAt, markAt, settings, subs, outcomes);
            r2.sends == [] && r2.store == r1.store && r2.results == r1.results
  {
    var p := PurgeExpired(store, purgeAt);
    var all := AllCandidates(settings, subs, outcomes);
    var r1 := Iteration(store, purgeAt, markAt, settings, subs, outcomes);
    DecideIsOneRun(p, markAt, settings, subs, outcomes);
    RunRecords(p, markAt, all);
    DecideIsOneRun(r1.store, markAt, settings, subs, outcomes);
    assert AllFresh(r1.store, purgeAt);
    PurgeKeepsFresh(r1.store, purgeAt);
  }

  // ---------------------------------------------------------------------
  // The channel-scoped dedup example

  /** The example's two subscribers, both following Raleigh. */
  predicate RaleighSubscribers(subs: Subscriptions.Store) {
    subs == map["a@x.com" := ["Raleigh"], "b@x.com" := ["Raleigh"]]
  }

  /** An office followed by exactly two stored emails has those two as its
      recipients, in ascending order. */
  lemma TwoFollowers(settings: Settings, subs: Subscriptions.Store, office: string, a: string, b: string)
    requires forall e :: e in subs <==> e == a || e == b
    requires office in subs[a] && office in subs[b]
    requires Less(a, b)
    ensures Recipients(settings, subs, office) == [a, b]
  {
    var r := Recipients(settings, subs, office);
    assert !NoFollowers(subs, office);
    assert StrictlySorted([a, b]);
    SortedUnique(r, [a, b]);
  }

  lemma RaleighRecipients(settings: Settings, subs: Subscriptions.Store)
    requires RaleighSubscribers(subs)
    ensures Recipients(settings, subs, "Raleigh") == ["a@x.com", "b@x.com"]
  {
    var a, b := "a@x.com", "b@x.com";
    assert a[0] == 'a' && b[0] == 'b';
    assert Less(a, b);
    TwoFollowers(settings, subs, "Raleigh", a, b);
  }

  lemma PerSignatureOne(c: Channel, office: string, url: Option<string>, sig: string)
    ensures PerSignature(c, office, url, [sig]) == [Send(c, office, url, sig)]
  {
    assert PerSignature(c, office, url, [sig])[0] == Send(c, office, url, sig);
  }

  lemma EmailFanoutTwo(a: string, b: string, office: string, url: Option<string>, sig: string)
    ensures EmailFanout([a, b], office, url, [sig]) == [Send(Email(a), office, url, sig), Send(Email(b), office, url, sig)]
  {
    PerSignatureOne(Email(a), office, url, sig);
    PerSignatureOne(Email(b), office, url, sig);
    assert [a, b][1..] == [b] && [b][1..] == [];
    assert EmailFanout([b], office, url, [sig]) == [Send(Email(b), office, url, sig)] + [];
    assert EmailFanout([a, b], office, url, [sig])
        == [Send(Email(a), office, url, sig)] + EmailFanout([b], office, url, [sig]);
  }

  /** With Discord and email open, SMS closed and two recipients, the
      candidates of one signature are its Discord send and one email each. */
  lemma CandidatesTwoRecipients(settings: Settings, subs: Subscriptions.Store, office: string,
                                url: Option<string>, sig: string, a: string, b: string)
    requires settings.notificationsEnabled && settings.discordEnabled
    requires !settings.smsEnabled && settings.emailEnabled && settings.emailConfigured
    requires Recipients(settings, subs, office) == [a, b]
    ensures Candidates(settings, subs, office, url, true, [sig])
            == [Send(Discord, office, url, sig), Send(Email(a), office, url, sig), Send(Email(b), office, url, sig)]
  {
    CandidatesDiscordAndEmail(settings, subs, office, url, [sig]);
    PerSignatureOne(Discord, office, url, sig);
    EmailFanoutTwo(a, b, office, url, sig);
  }

  /** With SMS closed and Discord and email open, the candidates are the
      Discord sends followed by the email fan-out. */
  lemma CandidatesDiscordAndEmail(settings: Settings, subs: Subscriptions.Store, office: string,
                                  url: Option<string>, signatures: seq<string>)
    requires settings.notificationsEnabled && settings.discordEnabled
    requires !settings.smsEnabled && settings.emailEnabled && settings.emailConfigured
    ensures var sigs := EffectiveSignatures(signatures);
            Candidates(settings, subs, office, url, true, signatures)
              == PerSignature(Discord, office, url, sigs) + EmailFanout(Recipients(settings, subs, office), office, url, sigs)
  {
    var sigs := EffectiveSignatures(signatures);
    var discord := PerSignature(Discord, office, url, sigs);
    assert discord + [] == discord;
  }

  /** Email keys of two different recipients of equal length differ, and
      both are longer than the bare signature. */
  lemma EqualLengthEmailKeys(a: string, b: string, sig: string)
    requires |a| == |b| && a != b
    ensures DedupKey(Email(a), sig) != DedupKey(Email(b), sig)
    ensures |DedupKey(Discord, sig)| < |DedupKey(Email(a), sig)|
  {
    var i :| 0 <= i < |a| && a[i] != b[i];
    assert DedupKey(Email(a), sig)[|EmailTag| + i] == a[i];
    assert DedupKey(Email(b), sig)[|EmailTag| + i] == b[i];
  }

  /** On an empty store, the candidates of one signature for an office with
      two recipients of equal length are all sent. */
  lemma TwoRecipientsAllSent(store: Store, now: int, settings: Settings, subs: Subscriptions.Store,
                             office: string, url: Option<string>, sig: string, a: string, b: string)
    requires store.seen == map[]
    requires settings.notificationsEnabled && settings.discordEnabled
    requires !settings.smsEnabled && settings.emailEnabled && settings.emailConfigured
    requires Recipients(settings, subs, office) == [a, b]
    requires |a| == |b| && a != b
    ensures HandleResult(store, now, settings, subs, office, url, true, [sig]).sends
            == [Send(Discord, office, url, sig), Send(Email(a), office, url, sig), Send(Email(b), office, url, sig)]
  {
    CandidatesTwoRecipients(settings, subs, office, url, sig, a, b);
    EqualLengthEmailKeys(a, b, sig);
    ThreeNewSent(store, now, Send(Discord, office, url, sig), Send(Email(a), office, url, sig),
                 Send(Email(b), office, url, sig));
  }

  /** Three candidates with distinct slots are all sent from an empty store. */
  lemma ThreeNewSent(store: Store, now: int, c0: Send, c1: Send, c2: Send)
    requires store.seen == map[]
    requires SlotOf(c0) != SlotOf(c1) && SlotOf(c0) != SlotOf(c2) && SlotOf(c1) != SlotOf(c2)
    ensures Run(store, now, [c0, c1, c2]).sends == [c0, c1, c2]
  {
    var cands := [c0, c1, c2];
    assert forall i, j :: 0 <= i < j < |cands| ==> SlotOf(cands[i]) != SlotOf(cands[j]);
    assert forall i :: 0 <= i < |cands| ==> !Noted(store, cands[i]);
    RunAllNew(store, now, cands);
  }

  /** A new signature for Raleigh with Discord and email enabled and two
      subscribers `a@x.com` and `b@x.com`: one Discord send and one email per
      subscriber; the same result handled again sends nothing. */
  lemma RaleighExample(store: Store, now: int, later: int, settings: Settings, subs: Subscriptions.Store, sig: string)
    requires store.seen == map[]
    requires settings.notificationsEnabled && settings.discordEnabled
    requires !settings.smsEnabled && settings.emailEnabled && settings.emailConfigured
    requires RaleighSubscribers(subs)
    ensures var d := HandleResult(store, now, settings, subs, "Raleigh", None, true, [sig]);
            && d.sends == [Send(Discord, "Raleigh", None, sig),
                           Send(Email("a@x.com"), "Raleigh", None, sig),
                           Send(Email("b@x.com"), "Raleigh", None, sig)]
            && HandleResult(d.store, later, settings, subs, "Raleigh", None, true, [sig]).sends == []
  {
    RaleighRecipients(settings, subs);
    assert "a@x.com"[0] != "b@x.com"[0];
    TwoRecipientsAllSent(store, now, settings, subs, "Raleigh", None, sig, "a@x.com", "b@x.com");
    HandleResultTwice(store, now, later, settings, subs, "Raleigh", None, true, [sig]);
  }
}

=== FILE: server.dfy ===
/** The pure decisions of the HTTP layer: the office listing, subscription
    upsert and delete, the two kinds of bearer-token gate, and the
    administrator-triggered test sends. Environment lookups become fields
    of `Service`; the handlers return a status instead of raising. */
module Server {
  import opened Wrappers
  import opened Text
  import opened StringOrder
  import Subscriptions
  import opened Dispatch
  import opened Scheduler

  /** An office as listed by the API: configured offices and discovered ones
      have the same shape. */
  datatype OfficeEntry = OfficeEntry(name: string, url: Option<string>)

  datatype HttpError = HttpError(status: int, detail: string)

  /** What the handlers read: the scheduler's configured offices and notifier
      settings once it exists, the subscription store once it exists, the
      module-level cache of discovered offices, and the raw value of the
      admin-token environment variable (empty when unset). */
  datatype SchedulerView = SchedulerView(offices: seq<OfficeEntry>, settings: Settings)

  datatype Service = Service(scheduler: Option<SchedulerView>,
                             subscriptions: Option<Subscriptions.Store>,
                             officesCache: seq<OfficeEntry>,
                             adminToken: string)

  /** A handler's answer and the service state after it. */
  datatype Reply<T> = Reply(response: Result<T, HttpError>, service: Service)

  const NotReady: int := 503
  const BadRequest: int := 400
  const Unauthorized: int := 401
  const Forbidden: int := 403
  const ServerError: int := 500

  const BearerPrefix: string := "Bearer "

  function Names(entries: seq<OfficeEntry>): set<string> {
    set e | e in entries :: e.name
  }

  // ---------------------------------------------------------------------
  // Office listing

  /** The last entry of `entries` called `name`, if any: the one a dict
      keyed by name keeps when the entries are inserted in order. */
  function LastNamed(entries: seq<OfficeEntry>, name: string): (r: Option<OfficeEntry>)
    ensures r.Some? <==> name in Names(entries)
    ensures r.Some? ==> r.value in entries && r.value.name == name
    decreases |entries|
  {
    if entries == [] then None
    else
      var last := entries[|entries| - 1];
      var init := entries[..|entries| - 1];
      assert entries == init + [last];
      assert forall e :: e in entries <==> e in init || e == last;
      if last.name == name then Some(last) else LastNamed(init, name)
  }

  lemma {:induction false} LastNamedCons(e: OfficeEntry, rest: seq<OfficeEntry>, name: string)
    ensures LastNamed([e] + rest, name)
            == if LastNamed(rest, name).Some? then LastNamed(rest, name)
               else if e.name == name then Some(e) else None
    decreases |rest|
  {
    if rest != [] {
      var all := [e] + rest;
      assert all[..|all| - 1] == [e] + rest[..|rest| - 1];
      assert all[|all| - 1] == rest[|rest| - 1];
      LastNamedCons(e, rest[..|rest| - 1], name);
    }
  }

  /** Inserts the entries into a name-keyed map in order, later ones
      overwriting earlier ones with the same name. */
  function IndexByName(entries: seq<OfficeEntry>, m: map<string, OfficeEntry>): (r: map<string, OfficeEntry>)
    ensures r.Keys == m.Keys + Names(entries)
    ensures forall n :: n in r ==>
              r[n] == if LastNamed(entries, n).Some? then LastNamed(entries, n).value else m[n]
    decreases |entries|
  {
    if entries == [] then m
    else
      var e := entries[0];
      var rest := entries[1..];
      assert entries == [e] + rest;
      assert Names(entries) == {e.name} + Names(rest);
      forall n ensures LastNamed(entries, n)
                       == if LastNamed(rest, n).Some? then LastNamed(rest, n)
                          else if e.name == n then Some(e) else None
      {
        LastNamedCons(e, rest, n);
      }
      IndexByName(rest, m[e.name := e])
  }

  /** Both lists indexed by name, discovered entries first so that a
      configured entry of the same name replaces them. */
  function MergedIndex(configured: seq<OfficeEntry>, discovered: seq<OfficeEntry>): (m: map<string, OfficeEntry>)
    ensures m.Keys == Names(configured) + Names(discovered)
    ensures forall n :: n in m ==> m[n].name == n
    ensures forall n :: n in m && n in Names(configured) ==> Some(m[n]) == LastNamed(configured, n)
    ensures forall n :: n in m && n !in Names(configured) ==> Some(m[n]) == LastNamed(discovered, n)
  {
    IndexByName(configured, IndexByName(discovered, map[]))
  }

  /** The values of `m` at `keys`, in order. */
  function ValuesAt(m: map<string, OfficeEntry>, keys: seq<string>): (r: seq<OfficeEntry>)
    requires forall k :: k in keys ==> k in m
    ensures |r| == |keys|
    ensures forall i :: 0 <= i < |keys| ==> r[i] == m[keys[i]]
  {
    seq(|keys|, i requires 0 <= i < |keys| => m[keys[i]])
  }

  /** When `m` files every entry under its own name, looking up keys gives
      entries with exactly those names. */
  lemma ValuesAtNames(m: map<string, OfficeEntry>, keys: seq<string>)
    requires forall k :: k in keys ==> k in m
    requires forall n :: n in m ==> m[n].name == n
    ensures forall i :: 0 <= i < |keys| ==> ValuesAt(m, keys)[i].name == keys[i]
    ensures forall n :: n in Names(ValuesAt(m, keys)) <==> n in keys
    ensures forall e :: e in ValuesAt(m, keys) ==> e.name in m && e == m[e.name]
  {
    var r := ValuesAt(m, keys);
    forall e | e in r
      ensures e.name in m && e == m[e.name]
    {
      var i :| 0 <= i < |r| && r[i] == e;
    }
    forall n | n in keys
      ensures n in Names(r)
    {
      var i :| 0 <= i < |keys| && keys[i] == n;
      assert r[i] in r;
    }
  }

  /** The offices known under either list: names ascending and distinct,
      each name from either list present, and a configured entry replacing
      a discovered one of the same name. */
  function MergeOffices(configured: seq<OfficeEntry>, discovered: seq<OfficeEntry>): (r: seq<OfficeEntry>)
    ensures forall i, j :: 0 <= i < j < |r| ==> Less(r[i].name, r[j].name)
    ensures forall n :: n in Names(r) <==> n in Names(configured) || n in Names(discovered)
    ensures forall e :: e in r && e.name in Names(configured) ==> Some(e) == LastNamed(configured, e.name)
    ensures forall e :: e in r && e.name !in Names(configured) ==> Some(e) == LastNamed(discovered, e.name)
  {
    var byName := MergedIndex(configured, discovered);
    var names := SortedOfSet(byName.Keys);
    var r := ValuesAt(byName, names);
    ValuesAtNames(byName, names);
    assert forall i, j :: 0 <= i < j < |r| ==> Less(r[i].name, r[j].name) by {
      assert StrictlySorted(names);
    }
    assert forall n :: n in Names(r) <==> n in byName.Keys;
    r
  }

  /** `GET /api/offices`: not ready without a scheduler; `configured` and
      `discovered` give that list unchanged; anything else the merge. */
  function ApiOffices(svc: Service, source: string): (r: Result<seq<OfficeEntry>, HttpError>)
    ensures svc.scheduler.None? <==> r == Failure(HttpError(NotReady, "scheduler_not_ready"))
    ensures r.Failure? ==> r.error.status == NotReady
    ensures r.Success? && source == "configured" ==> r.value == svc.scheduler.value.offices
    ensures r.Success? && source == "discovered" ==> r.value == svc.officesCache
    ensures r.Success? && source != "configured" && source != "discovered" ==>
              forall n :: n in Names(r.value) <==> n in Names(svc.scheduler.value.offices) || n in Names(svc.officesCache)
    ensures r.Success? && source != "configured" && source != "discovered" ==>
              r.value == MergeOffices(svc.scheduler.value.offices, svc.officesCache)
  {
    if svc.scheduler.None? then Failure(HttpError(NotReady, "scheduler_not_ready"))
    else
      var configured := svc.scheduler.value.offices;
      if source == "configured" then Success(configured)
      else if source == "discovered" then Success(svc.officesCache)
      else Success(MergeOffices(configured, svc.officesCache))
  }

  // ---------------------------------------------------------------------
  // Subscriptions

  /** The names a subscription may use: the discovered ones and, once the
      scheduler exists, the configured ones. */
  function KnownOffices(svc: Service): (r: set<string>)
    ensures forall n :: n in r <==>
              n in Names(svc.officesCache) || (svc.scheduler.Some? && n in Names(svc.scheduler.value.offices))
  {
    Names(svc.officesCache) + (if svc.scheduler.Some? then Names(svc.scheduler.value.offices) else {})
  }

  /** The payload's email, trimmed and lower-cased; a missing email is empty. */
  function NormaliseEmail(raw: Option<string>): (r: string)
    ensures raw.None? ==> r == ""
    ensures r == Lower(Strip(raw.GetOr("")))
    ensures Stripped(r)
    ensures forall i :: 0 <= i < |r| ==> !('A' <= r[i] <= 'Z')
  {
    var s := Strip(raw.GetOr(""));
    LowerKeepsStripped(s);
    Lower(s)
  }

  /** Normalising a normalised email changes nothing. */
  lemma NormaliseEmailIdempotent(raw: Option<string>)
    ensures NormaliseEmail(Some(NormaliseEmail(raw))) == NormaliseEmail(raw)
  {
    var r := NormaliseEmail(raw);
    StripStripped(r);
    LowerNoCapitals(r);
  }

  /** The `offices` field of a payload, after `or []`: a falsy value (absent,
      null, empty) reads as the empty list, a list as its items, and any
      other value as not a list. */
  datatype OfficesField = Falsy | Items(items: seq<string>) | NotAList

  /** The first of `offices` outside `known`, if any. */
  function FirstUnknown(offices: seq<string>, known: set<string>): (r: Option<string>)
    ensures r.None? <==> forall o :: o in offices ==> o in known
    ensures r.Some? ==> r.value in offices && r.value !in known
    ensures r.Some? ==> exists i :: 0 <= i < |offices| && offices[i] == r.value
                                    && forall j :: 0 <= j < i ==> offices[j] in known
    decreases |offices|
  {
    if offices == [] then None
    else if offices[0] !in known then Some(offices[0])
    else
      var r := FirstUnknown(offices[1..], known);
      assert forall o :: o in offices <==> o == offices[0] || o in offices[1..];
      if r.Some? then
        var i :| 0 <= i < |offices[1..]| && offices[1..][i] == r.value
                 && forall j :: 0 <= j < i ==> offices[1..][j] in known;
        assert offices[i + 1] == r.value;
        r
      else r
  }

  /** `POST /api/subscriptions`: refuses without a store, with an empty email
      or a non-list `offices`, and at the first unknown office; otherwise
      replaces the email's offices. A refusal changes nothing. */
  function UpsertSubscription(svc: Service, email: Option<string>, offices: OfficesField): (r: Reply<()>)
    ensures r.response.Failure? ==> r.service == svc
    ensures svc.subscriptions.None? ==> r.response == Failure(HttpError(NotReady, "subs_not_ready"))
    ensures svc.subscriptions.Some? && (NormaliseEmail(email) == "" || offices.NotAList?) ==>
              r.response == Failure(HttpError(BadRequest, "invalid_payload"))
    ensures r.response.Success? <==>
              && svc.subscriptions.Some?
              && NormaliseEmail(email) != ""
              && !offices.NotAList?
              && (offices.Items? ==> forall o :: o in offices.items ==> o in KnownOffices(svc))
    ensures r.response.Failure? && r.response.error.status == BadRequest && offices.Items?
              && NormaliseEmail(email) != "" ==>
              r.response.error.detail == "unknown_office: " + FirstUnknown(offices.items, KnownOffices(svc)).value
    ensures svc.subscriptions.Some? && NormaliseEmail(email) != "" && offices.Items?
            && FirstUnknown(offices.items, KnownOffices(svc)).Some? ==>
              r.response == Failure(HttpError(BadRequest, "unknown_office: " + FirstUnknown(offices.items, KnownOffices(svc)).value))
    ensures r.response.Success? ==> r.service.subscriptions.Some?
    ensures r.response.Success? ==>
              var stored := r.service.subscriptions.value;
              var e := NormaliseEmail(email);
              && e in stored
              && (forall o :: o in stored[e] <==> offices.Items? && o in offices.items)
              && StrictlySorted(stored[e])
              && (forall o :: o in stored[e] ==> o in KnownOffices(svc))
              && (forall e' :: e' != e ==> (e' in stored <==> e' in svc.subscriptions.value))
              && (forall e' :: e' != e && e' in svc.subscriptions.value ==> stored[e'] == svc.subscriptions.value[e'])
              && r.service == svc.(subscriptions := Some(stored))
  {
    if svc.subscriptions.None? then Reply(Failure(HttpError(NotReady, "subs_not_ready")), svc)
    else
      var e := NormaliseEmail(email);
      if e == "" || offices.NotAList? then Reply(Failure(HttpError(BadRequest, "invalid_payload")), svc)
      else
        var items := if offices.Items? then offices.items else [];
        match FirstUnknown(items, KnownOffices(svc))
        case Some(off) => Reply(Failure(HttpError(BadRequest, "unknown_office: " + off)), svc)
        case None =>
          var stored := Subscriptions.SetSubscription(svc.subscriptions.value, e, items);
          Reply(Success(()), svc.(subscriptions := Some(stored)))
  }

  /** `DELETE /api/subscriptions`: refuses without a store or with an empty
      email; otherwise removes the email if present. */
  function DeleteSubscription(svc: Service, email: Option<string>): (r: Reply<()>)
    ensures r.response.Failure? ==> r.service == svc
    ensures svc.subscriptions.None? ==> r.response == Failure(HttpError(NotReady, "subs_not_ready"))
    ensures svc.subscriptions.Some? && NormaliseEmail(email) == "" ==>
              r.response == Failure(HttpError(BadRequest, "invalid_payload"))
    ensures r.response.Success? <==> svc.subscriptions.Some? && NormaliseEmail(email) != ""
    ensures r.response.Success? ==> r.service.subscriptions.Some?
    ensures r.response.Success? ==>
              var stored := r.service.subscriptions.value;
              && NormaliseEmail(email) !in stored
              && (forall e :: e != NormaliseEmail(email) ==> (e in stored <==> e in svc.subscriptions.value))
              && (forall e :: e != NormaliseEmail(email) && e in svc.subscriptions.value ==> stored[e] == svc.subscriptions.value[e])
              && r.service == svc.(subscriptions := Some(stored))
  {
    if svc.subscriptions.None? then Reply(Failure(HttpError(NotReady, "subs_not_ready")), svc)
    else
      var e := NormaliseEmail(email);
      if e == "" then Reply(Failure(HttpError(BadRequest, "invalid_payload")), svc)
      else Reply(Success(()), svc.(subscriptions := Some(Subscriptions.Remove(svc.subscriptions.value, e))))
  }

  // ---------------------------------------------------------------------
  // Bearer-token gates

  /** The gate of the listing and discovery endpoints: the trimmed admin
      token must be set and the header must be exactly `Bearer <token>`. */
  predicate ExactBearer(adminToken: string, authorization: Option<string>)
    ensures ExactBearer(adminToken, authorization) ==>
              && Strip(adminToken) != ""
              && authorization.Some?
              && StartsWith(authorization.value, BearerPrefix)
              && authorization.value[|BearerPrefix|..] == Strip(adminToken)
  {
    AfterPrefix(BearerPrefix, Strip(adminToken));
    var expected := Strip(adminToken);
    expected != "" && authorization == Some(BearerPrefix + expected)
  }

  /** `GET /api/subscriptions`: forbidden unless the exact gate passes;
      then the whole store (empty when there is none). */
  function ListSubscriptions(svc: Service, authorization: Option<string>): (r: Result<Subscriptions.Store, HttpError>)
    ensures r.Success? <==> Strip(svc.adminToken) != "" && authorization == Some(BearerPrefix + Strip(svc.adminToken))
    ensures r.Failure? ==> r.error == HttpError(Forbidden, "forbidden")
    ensures r.Success? ==> r.value == svc.subscriptions.GetOr(map[])
    ensures authorization.None? ==> r.Failure?
  {
    if !ExactBearer(svc.adminToken, authorization) then Failure(HttpError(Forbidden, "forbidden"))
    else Success(svc.subscriptions.GetOr(map[]))
  }

  /** The gate of the test-send endpoints, checked in order: no admin token
      is a server error, a header without the `Bearer ` prefix is
      unauthorised, and a token (trimmed, after the first space) that
      differs is forbidden. `None` lets the request through. */
  function TestGate(adminToken: string, authorization: Option<string>): (r: Option<HttpError>)
    ensures Strip(adminToken) == "" ==> r == Some(HttpError(ServerError, "admin_token_not_set"))
    ensures Strip(adminToken) != "" && (authorization.None? || !StartsWith(authorization.value, BearerPrefix)) ==>
              r == Some(HttpError(Unauthorized, "missing_bearer_token"))
    ensures r.None? <==> Strip(adminToken) != "" && authorization.Some? && StartsWith(authorization.value, BearerPrefix)
                         && Strip(authorization.value[|BearerPrefix|..]) == Strip(adminToken)
    ensures Strip(adminToken) != "" && authorization.Some? && StartsWith(authorization.value, BearerPrefix)
            && Strip(authorization.value[|BearerPrefix|..]) != Strip(adminToken) ==>
              r == Some(HttpError(Forbidden, "invalid_token"))
    ensures r.Some? ==> r.value.status in {ServerError, Unauthorized, Forbidden}
  {
    var expected := Strip(adminToken);
    if expected == "" then Some(HttpError(ServerError, "admin_token_not_set"))
    else if authorization.None? || !StartsWith(authorization.value, BearerPrefix) then
      Some(HttpError(Unauthorized, "missing_bearer_token"))
    else
      // "Bearer" holds no space, so the text after the first space starts at index 7
      var provided := Strip(authorization.value[|BearerPrefix|..]);
      if provided != expected then Some(HttpError(Forbidden, "invalid_token")) else None
  }

  lemma AfterPrefix(p: string, t: string)
    ensures StartsWith(p + t, p) && (p + t)[|p|..] == t
  {
    assert (p + t)[..|p|] == p;
  }

  /** Whatever passes the exact gate passes the test-send gate. */
  lemma ExactBearerPassesTestGate(adminToken: string, authorization: Option<string>)
    requires ExactBearer(adminToken, authorization)
    ensures TestGate(adminToken, authorization).None?
  {
    var expected := Strip(adminToken);
    var h := authorization.value;
    AfterPrefix(BearerPrefix, expected);
    assert StartsWith(h, BearerPrefix);
    assert h[|BearerPrefix|..] == expected;
    StripStripped(expected);
    assert Strip(h[|BearerPrefix|..]) == expected;
  }

  /** The test-send gate is the more lenient one: spaces around the token
      are accepted there and refused by the exact gate. */
  lemma TestGateTrimsToken(token: string)
    requires Stripped(token) && token != ""
    ensures TestGate(token, Some(BearerPrefix + " " + token + " ")).None?
    ensures !ExactBearer(token, Some(BearerPrefix + " " + token + " "))
  {
    StripStripped(token);
    var h := BearerPrefix + " " + token + " ";
    assert h[..|BearerPrefix|] == BearerPrefix;
    var rest := h[|BearerPrefix|..];
    assert rest == " " + token + " ";
    StripPadded(token);
    assert |h| != |BearerPrefix + token|;
  }

  // ---------------------------------------------------------------------
  // Administrator-triggered test sends

  const TestOffice: string := "TEST"

  /** `POST /api/test-sms`: not ready, SMS disabled, then the test gate;
      if all pass, the SMS task's own checks decide whether a text goes out. */
  function ApiTestSms(svc: Service, authorization: Option<string>): (r: Result<Option<Delivery>, HttpError>)
    ensures svc.scheduler.None? ==> r == Failure(HttpError(NotReady, "scheduler_not_ready"))
    ensures svc.scheduler.Some? && !svc.scheduler.value.settings.smsEnabled ==>
              r == Failure(HttpError(BadRequest, "sms_not_enabled"))
    ensures svc.scheduler.Some? && svc.scheduler.value.settings.smsEnabled ==>
              match TestGate(svc.adminToken, authorization)
              case Some(err) => r == Failure(err)
              case None => r.Success?
    ensures r.Success? ==> TestGate(svc.adminToken, authorization).None?
    ensures r.Success? ==>
              var st := svc.scheduler.value.settings;
              (r.value.Some? <==> st.notificationsEnabled && st.smsConfigured && Strip(st.smsTestTo) != "")
    ensures r.Success? && r.value.Some? ==>
              var st := svc.scheduler.value.settings;
              r.value.value == TextMessage(Strip(st.smsTestTo), TestOffice, None, "Test message from NC VIP-DMV")
  {
    if svc.scheduler.None? then Failure(HttpError(NotReady, "scheduler_not_ready"))
    else
      var st := svc.scheduler.value.settings;
      if !st.smsEnabled then Failure(HttpError(BadRequest, "sms_not_enabled"))
      else match TestGate(svc.adminToken, authorization)
        case Some(err) => Failure(err)
        case None => Success(Deliver(st, Send(Sms, TestOffice, None, "Test message from NC VIP-DMV")))
  }

  /** `POST /api/test-email`: not ready, email disabled, the test gate, and
      a missing test address, in that order; then the email task's own
      checks decide whether mail goes out, to the test address. */
  function ApiTestEmail(svc: Service, authorization: Option<string>): (r: Result<Option<Delivery>, HttpError>)
    ensures svc.scheduler.None? ==> r == Failure(HttpError(NotReady, "scheduler_not_ready"))
    ensures svc.scheduler.Some? && !svc.scheduler.value.settings.emailEnabled ==>
              r == Failure(HttpError(BadRequest, "email_not_enabled"))
    ensures svc.scheduler.Some? && svc.scheduler.value.settings.emailEnabled ==>
              match TestGate(svc.adminToken, authorization)
              case Some(err) => r == Failure(err)
              case None =>
                if Strip(svc.scheduler.value.settings.emailTestTo) == "" then
                  r == Failure(HttpError(BadRequest, "missing_test_to_email_env"))
                else r.Success?
    ensures r.Success? ==> TestGate(svc.adminToken, authorization).None?
                           && Strip(svc.scheduler.value.settings.emailTestTo) != ""
    ensures r.Success? ==>
              var st := svc.scheduler.value.settings;
              (r.value.Some? <==> st.notificationsEnabled && st.emailConfigured)
    ensures r.Success? && r.value.Some? ==>
              r.value.value == Mail(Strip(svc.scheduler.value.settings.emailTestTo), TestOffice, None,
                                    "Test email from NC VIP-DMV")
  {
    if svc.scheduler.None? then Failure(HttpError(NotReady, "scheduler_not_ready"))
    else
      var st := svc.scheduler.value.settings;
      if !st.emailEnabled then Failure(HttpError(BadRequest, "email_not_enabled"))
      else match TestGate(svc.adminToken, authorization)
        case Some(err) => Failure(err)
        case None =>
          var to := Strip(st.emailTestTo);
          if to == "" then Failure(HttpError(BadRequest, "missing_test_to_email_env"))
          else Success(Deliver(st, Send(Email(to), TestOffice, None, "Test email from NC VIP-DMV")))
  }

  // ---------------------------------------------------------------------
  // The discovered-offices cache at startup

  /** The cache as the startup code leaves it: the background task assigns
      the discovery result to a name local to that task, so the module-level
      cache keeps its initial empty value whatever discovery returns. */
  function StartupCacheAsWritten(discovery: Option<seq<OfficeEntry>>): (r: seq<OfficeEntry>)
    ensures r == []
  {
    []
  }

  /** The cache as intended: the discovery result, or empty when discovery failed. */
  function StartupCache(discovery: Option<seq<OfficeEntry>>): (r: seq<OfficeEntry>)
    ensures discovery.Some? ==> r == discovery.value
    ensures discovery.Some? ==> Names(r) == Names(discovery.value)
    ensures discovery.None? ==> r == []
  {
    discovery.GetOr([])
  }

  /** As written, an office found only by discovery cannot be subscribed
      to: the upsert names it as unknown. */
  lemma DiscoveredOfficeRefusedAsWritten(configured: seq<OfficeEntry>, settings: Settings, subs: Subscriptions.Store,
                                         token: string, discovered: seq<OfficeEntry>, email: string, office: string)
    requires NormaliseEmail(Some(email)) != ""
    requires office in Names(discovered) && office !in Names(configured)
    ensures var svc := Service(Some(SchedulerView(configured, settings)), Some(subs),
                               StartupCacheAsWritten(Some(discovered)), token);
            UpsertSubscription(svc, Some(email), Items([office])).response
              == Failure(HttpError(BadRequest, "unknown_office: " + office))
  {
  }

  /** With the cache filled from discovery, every discovered office can be
      subscribed to and ends up in the stored list. */
  lemma DiscoveredOfficeAccepted(svc: Service, discovered: seq<OfficeEntry>, email: string, offices: seq<string>)
    requires svc.subscriptions.Some?
    requires NormaliseEmail(Some(email)) != ""
    requires forall o :: o in offices ==> o in Names(discovered)
    ensures var r := UpsertSubscription(svc.(officesCache := StartupCache(Some(discovered))), Some(email), Items(offices));
            && r.response.Success?
            && forall o :: o in offices ==> o in r.service.subscriptions.value[NormaliseEmail(Some(email))]
  {
  }
}

=== FILE: state.dfy ===
/** The seen-signature store: for every office, the dedup keys already
    notified and the time each was last marked. Time is a parameter (whole
    seconds since the epoch); reading and writing the JSON file is replaced
    by the value it would hold. */
module DedupStore {
  import opened Wrappers

  /** Dedup key -> time it was last marked. */
  type KeyStamps = map<string, int>

  /** Office name -> its key stamps: the `"seen"` object of the state file. */
  type Seen = map<string, KeyStamps>

  datatype Store = Store(ttlSeconds: int, seen: Seen)

  const SecondsPerHour: int := 3600

  /** Opens a store whose TTL is given in hours. `persisted` is the parsed
      content of the state file, `None` when the file is missing or does not
      parse: both start from an empty store instead of failing. */
  function Open(ttlHours: int, persisted: Option<Seen>): (r: Store)
    ensures r.ttlSeconds == ttlHours * SecondsPerHour
    ensures persisted.None? ==> r.seen == map[]
    ensures persisted.Some? ==> r.seen == persisted.value
  {
    Store(ttlHours * SecondsPerHour, persisted.GetOr(map[]))
  }

  /** The key is recorded under the office, whatever its age. */
  predicate WasSeen(s: Store, office: string, key: string)
    ensures WasSeen(s, office, key) ==> office in s.seen && s.seen[office] != map[]
  {
    office in s.seen && key in s.seen[office]
  }

  /** No office is kept with an empty key map. */
  predicate NoEmptyOffices(s: Store) {
    forall o :: o in s.seen ==> s.seen[o] != map[]
  }

  /** Every entry is at most `ttlSeconds` old at time `now`. */
  ghost predicate AllFresh(s: Store, now: int) {
    forall o, k :: WasSeen(s, o, k) ==> now - s.seen[o][k] <= s.ttlSeconds
  }

  /** Records `key` under `office` with time `now`, creating the office's
      map on first use; nothing else in the store moves. */
  function MarkSeen(s: Store, office: string, key: string, now: int): (r: Store)
    ensures r.ttlSeconds == s.ttlSeconds
    ensures WasSeen(r, office, key) && r.seen[office][key] == now
    ensures forall o, k :: (o != office || k != key) ==> (WasSeen(r, o, k) <==> WasSeen(s, o, k))
    ensures forall o, k :: (o != office || k != key) && WasSeen(s, o, k)
                           ==> WasSeen(r, o, k) && r.seen[o][k] == s.seen[o][k]
    ensures forall o :: o != office ==> (o in r.seen <==> o in s.seen)
    ensures forall o :: o != office && o in s.seen ==> r.seen[o] == s.seen[o]
    ensures NoEmptyOffices(s) ==> NoEmptyOffices(r)
  {
    var stamps := if office in s.seen then s.seen[office] else map[];
    s.(seen := s.seen[office := stamps[key := now]])
  }

  /** The entries of one office that are still within the TTL at `now`. */
  function Unexpired(stamps: KeyStamps, now: int, ttl: int): KeyStamps {
    map k | k in stamps && now - stamps[k] <= ttl :: stamps[k]
  }

  /** Drops every entry older than the TTL (the boundary age is kept) and
      every office left without entries. */
  function PurgeExpired(s: Store, now: int): (r: Store)
    ensures r.ttlSeconds == s.ttlSeconds
    ensures forall o, k :: WasSeen(r, o, k) <==> WasSeen(s, o, k) && now - s.seen[o][k] <= s.ttlSeconds
    ensures forall o, k :: WasSeen(r, o, k) ==> WasSeen(s, o, k) && r.seen[o][k] == s.seen[o][k]
    ensures forall o :: o in r.seen ==> o in s.seen
    ensures NoEmptyOffices(r)
    ensures AllFresh(r, now)
  {
    var kept := map o | o in s.seen && Unexpired(s.seen[o], now, s.ttlSeconds) != map[]
                      :: Unexpired(s.seen[o], now, s.ttlSeconds);
    assert forall o, k :: o in s.seen && k in s.seen[o] && now - s.seen[o][k] <= s.ttlSeconds
                          ==> k in Unexpired(s.seen[o], now, s.ttlSeconds);
    Store(s.ttlSeconds, kept)
  }

  /** A store with nothing to drop is left as it is. */
  lemma PurgeKeepsFresh(s: Store, now: int)
    requires NoEmptyOffices(s) && AllFresh(s, now)
    ensures PurgeExpired(s, now) == s
  {
    var r := PurgeExpired(s, now);
    forall o | o in s.seen
      ensures o in r.seen && r.seen[o] == s.seen[o]
    {
      var k :| k in s.seen[o];
      assert WasSeen(s, o, k);
      assert WasSeen(r, o, k);
      assert r.seen[o] == s.seen[o];
    }
    assert r.seen == s.seen;
  }

  /** Purging twice at the same instant is purging once. */
  lemma PurgeIdempotent(s: Store, now: int)
    ensures PurgeExpired(PurgeExpired(s, now), now) == PurgeExpired(s, now)
  {
    PurgeKeepsFresh(PurgeExpired(s, now), now);
  }

  /** An entry marked at `t` survives a purge at `t'` exactly when
      `t' - t` is at most the TTL. */
  lemma MarkThenPurge(s: Store, office: string, key: string, t: int, t': int)
    ensures WasSeen(PurgeExpired(MarkSeen(s, office, key, t), t'), office, key)
            <==> t' - t <= s.ttlSeconds
  {
  }

  /** With the TTL given in hours: an entry is still there `ttlHours` hours
      after it was marked, and gone one second later. */
  lemma TtlBoundary(ttlHours: int, persisted: Option<Seen>, office: string, key: string, t: int)
    ensures var s := MarkSeen(Open(ttlHours, persisted), office, key, t);
            && WasSeen(PurgeExpired(s, t + ttlHours * SecondsPerHour), office, key)
            && !WasSeen(PurgeExpired(s, t + ttlHours * SecondsPerHour + 1), office, key)
  {
    var s := MarkSeen(Open(ttlHours, persisted), office, key, t);
    MarkThenPurge(Open(ttlHours, persisted), office, key, t, t + ttlHours * SecondsPerHour);
    MarkThenPurge(Open(ttlHours, persisted), office, key, t, t + ttlHours * SecondsPerHour + 1);
  }

  /** A store opened from a missing or corrupt file has seen nothing, and
      marking then works as on any other store. */
  lemma OpenCorruptIsEmpty(ttlHours: int, office: string, key: string, now: int)
    ensures forall o, k :: !WasSeen(Open(ttlHours, None), o, k)
    ensures WasSeen(MarkSeen(Open(ttlHours, None), office, key, now), office, key)
  {
  }
}

=== FILE: subscriptions.dfy ===
/** The subscription store: which offices each email address follows.
    Reading and writing the JSON file is replaced by the value it would hold. */
module Subscriptions {
  import opened Wrappers
  import opened StringOrder

  /** Email -> offices it follows, as held in the subscriptions file. */
  type Store = map<string, seq<string>>

  /** Opens the store from the parsed file; `None` (missing or unreadable
      file) gives the empty store instead of an error. */
  function Open(persisted: Option<Store>): (r: Store)
    ensures persisted.None? ==> r == map[]
    ensures persisted.Some? ==> r == persisted.value
  {
    persisted.GetOr(map[])
  }

  /** Every stored email, ascending, each once. */
  function ListEmails(s: Store): (r: seq<string>)
    ensures StrictlySorted(r)
    ensures forall e :: e in r <==> e in s
  {
    SortedOfSet(s.Keys)
  }

  /** The offices stored for `email`, the empty list for an unknown email. */
  function GetOfficesFor(s: Store, email: string): (r: seq<string>)
    ensures email in s ==> r == s[email]
    ensures email !in s ==> r == []
  {
    if email in s then s[email] else []
  }

  /** Replaces the offices of `email` by the distinct offices of `offices`,
      ascending; no earlier office survives unless it is listed again, and
      every other email keeps its entry. */
  function SetSubscription(s: Store, email: string, offices: seq<string>): (r: Store)
    ensures email in r && StrictlySorted(r[email])
    ensures forall o :: o in r[email] <==> o in offices
    ensures forall e :: e != email ==> (e in r <==> e in s)
    ensures forall e :: e != email && e in s ==> r[e] == s[e]
  {
    s[email := SortedOfSet(set o | o in offices)]
  }

  /** Deletes `email` if it is stored; otherwise the store is unchanged. */
  function Remove(s: Store, email: string): (r: Store)
    ensures email !in r
    ensures email !in s ==> r == s
    ensures forall e :: e != email ==> (e in r <==> e in s)
    ensures forall e :: e != email && e in s ==> r[e] == s[e]
  {
    if email in s then s - {email} else s
  }

  /** Two subscriptions that list the same offices in any order and with any
      repetition store the same list. */
  lemma SetSubscriptionOrderFree(s: Store, email: string, xs: seq<string>, ys: seq<string>)
    requires forall o :: o in xs <==> o in ys
    ensures SetSubscription(s, email, xs) == SetSubscription(s, email, ys)
  {
    SortedUnique(SetSubscription(s, email, xs)[email], SetSubscription(s, email, ys)[email]);
  }

  /** Setting `a@x.com` to Raleigh, Raleigh, Durham stores Durham, Raleigh;
      setting it again to Durham alone stores Durham alone. */
  lemma OverwriteExample()
    ensures var s1 := SetSubscription(map[], "a@x.com", ["Raleigh", "Raleigh", "Durham"]);
            && GetOfficesFor(s1, "a@x.com") == ["Durham", "Raleigh"]
            && GetOfficesFor(SetSubscription(s1, "a@x.com", ["Durham"]), "a@x.com") == ["Durham"]
  {
    var s1 := SetSubscription(map[], "a@x.com", ["Raleigh", "Raleigh", "Durham"]);
    assert Less("Durham", "Raleigh");
    SortedUnique(s1["a@x.com"], ["Durham", "Raleigh"]);
    var s2 := SetSubscription(s1, "a@x.com", ["Durham"]);
    SortedUnique(s2["a@x.com"], ["Durham"]);
  }
}

=== FILE: text.dfy ===
/** The few string operations the system applies to user input and to
    environment values: `str.strip()`, ASCII `str.lower()` and `str.startswith`. */
module Text {

  /** Characters Python's `str.isspace()` accepts, which is what a bare
      `strip()` removes. */
  predicate IsSpace(c: char)
    ensures c == ' ' || c == '\t' || c == '\n' || c == '\r' ==> IsSpace(c)
    ensures '0' <= c <= '9' || 'A' <= c <= 'Z' || 'a' <= c <= 'z' ==> !IsSpace(c)
  {
    || c == ' '
    || ('\t' <= c <= '\r')
    || ('\U{1C}' <= c <= '\U{1F}')
    || c == '\U{85}'
    || c == '\U{A0}'
    || c == '\U{1680}'
    || ('\U{2000}' <= c <= '\U{200A}')
    || c == '\U{2028}'
    || c == '\U{2029}'
    || c == '\U{202F}'
    || c == '\U{205F}'
    || c == '\U{3000}'
  }

  predicate AllSpace(s: string) {
    forall i :: 0 <= i < |s| ==> IsSpace(s[i])
  }

  /** Neither end of `s` is a space: a string `strip()` leaves alone. */
  predicate Stripped(s: string) {
    s == [] || (!IsSpace(s[0]) && !IsSpace(s[|s| - 1]))
  }

  /** The first index at or after `i` that is not a space, or `|s|`: the
      spaces a left strip starting at `i` skips. */
  function SkipSpaces(s: string, i: nat): (r: nat)
    requires i <= |s|
    ensures i <= r <= |s|
    ensures forall k :: i <= k < r ==> IsSpace(s[k])
    ensures r < |s| ==> !IsSpace(s[r])
    decreases |s| - i
  {
    if i < |s| && IsSpace(s[i]) then SkipSpaces(s, i + 1) else i
  }

  /** The smallest `j'` with `lo <= j' <= j` such that `s[j'..j]` is all
      space: the spaces a right strip ending at `j` drops, never going below `lo`. */
  function DropSpaces(s: string, lo: nat, j: nat): (r: nat)
    requires lo <= j <= |s|
    ensures lo <= r <= j
    ensures forall k :: r <= k < j ==> IsSpace(s[k])
    ensures r > lo ==> !IsSpace(s[r - 1])
    decreases j
  {
    if j > lo && IsSpace(s[j - 1]) then DropSpaces(s, lo, j - 1) else j
  }

  /** Python's `s.strip()`: spaces cut from both ends. */
  function Strip(s: string): (r: string)
    ensures Stripped(r)
    ensures |r| <= |s|
  {
    var i := SkipSpaces(s, 0);
    var j := DropSpaces(s, i, |s|);
    s[i..j]
  }

  /** What `Strip` removes is spaces only: the result is an infix of `s`
      with nothing but spaces on either side. */
  lemma StripCutsOnlySpaces(s: string)
    ensures exists i, j :: 0 <= i <= j <= |s| && Strip(s) == s[i..j] && AllSpace(s[..i]) && AllSpace(s[j..])
  {
    var i := SkipSpaces(s, 0);
    var j := DropSpaces(s, i, |s|);
    assert AllSpace(s[..i]);
    assert AllSpace(s[j..]) by {
      forall k | 0 <= k < |s| - j
        ensures IsSpace(s[j..][k])
      {
        assert s[j..][k] == s[j + k];
      }
    }
  }

  /** Stripping a non-empty stripped string padded with one space on each
      side gives the string back. */
  lemma StripPadded(t: string)
    requires Stripped(t) && t != ""
    ensures Strip(" " + t + " ") == t
  {
    var x := " " + t + " ";
    assert x[0] == ' ' && x[1] == t[0];
    assert SkipSpaces(x, 0) == 1 by {
      assert SkipSpaces(x, 0) == SkipSpaces(x, 1);
    }
    assert x[|x| - 1] == ' ' && x[|x| - 2] == t[|t| - 1];
    assert DropSpaces(x, 1, |x|) == |x| - 1 by {
      assert DropSpaces(x, 1, |x|) == DropSpaces(x, 1, |x| - 1);
    }
    assert x[1..|x| - 1] == t;
  }

  /** A string with no spaces at either end is its own strip. */
  lemma StripStripped(s: string)
    requires Stripped(s)
    ensures Strip(s) == s
  {
  }

  function LowerChar(c: char): (r: char)
    ensures 'A' <= c <= 'Z' ==> 'a' <= r <= 'z' && r as int == c as int + 32
    ensures !('A' <= c <= 'Z') ==> r == c
  {
    if 'A' <= c <= 'Z' then (c as int + 32) as char else c
  }

  /** `str.lower()` restricted to ASCII letters: every upper-case letter is
      replaced by its lower-case partner and nothing else moves. */
  function Lower(s: string): (r: string)
    ensures |r| == |s|
    ensures forall i :: 0 <= i < |s| ==> r[i] == LowerChar(s[i])
    ensures forall i :: 0 <= i < |r| ==> !('A' <= r[i] <= 'Z')
  {
    seq(|s|, i requires 0 <= i < |s| => LowerChar(s[i]))
  }

  /** Lower-casing keeps a stripped string stripped: no letter is a space. */
  lemma LowerKeepsStripped(s: string)
    requires Stripped(s)
    ensures Stripped(Lower(s))
  {
    if s != [] {
      assert Lower(s)[0] == LowerChar(s[0]);
      assert Lower(s)[|s| - 1] == LowerChar(s[|s| - 1]);
    }
  }

  /** A string without capitals is its own lower case. */
  lemma LowerNoCapitals(s: string)
    requires forall i :: 0 <= i < |s| ==> !('A' <= s[i] <= 'Z')
    ensures Lower(s) == s
  {
  }

  /** `s.startswith(prefix)`: the first `|prefix|` characters of `s` are `prefix`. */
  predicate StartsWith(s: string, prefix: string)
    ensures StartsWith(s, prefix) ==> |prefix| <= |s| && forall i :: 0 <= i < |prefix| ==> s[i] == prefix[i]
  {
    |prefix| <= |s| && s[..|prefix|] == prefix
  }
}

=== FILE: wrappers.dfy ===
/** Option and Result, the two failure-carrying datatypes the model uses for
    values that may be missing and for operations that can be refused. */
module Wrappers {

  datatype Option<+T> = None | Some(value: T) {

    /** The value, or `default` when there is none (Python's `x or default`
        for a value whose only falsy form is "missing"). */
    function GetOr(default: T): T {
      match this
      case Some(v) => v
      case None => default
    }
  }

  datatype Result<+R, +E> = Success(value: R) | Failure(error: E)
}
